=== FILE: README.md ===
# ColorDistance core in Dafny

A model of the numerical engine of ColorDistance, an interactive tester for
colour-distance metrics used to tune fill tolerance in a painting application.
Two RGBA colours are compared through a seven-band spectral representation.
The comparison gives a distance, and a tolerance turns that distance into a
fill alpha.

The project has four modules:

- **`Prelude`** (`prelude.dfy`) holds the parts of Python the core relies on:
  - `Option` stands for `None`, and for an exception the source catches;
  - `Sum` and `Max` model the built-ins `sum` and `max`;
  - `RealFns` carries `sqrt` and `log2`;
  - `Lawful` states the laws those two functions obey.
- **`Spectral`** (`spectral.py`) models the RGB to spectral upsampler:
  - the three primary tables and their per-band totals `Sums`;
  - the epsilon floor `v*(1-EPSILON)+EPSILON`;
  - `channel_spectrals`, `rgb_to_spectral` and `rgb_to_spectral_log`;
  - `diff`.
- **`DistanceModels`** (`distance_models.py`) models the metric library:
  - the four normalisation constants;
  - `log_clamped` and the `loggify`/`spectralize` wrappers;
  - the four generic accumulators;
  - the six `spectral_*` metrics, and the `distance_functions` catalogue as
    the `Metric` datatype plus its label table.
- **`ToleranceModel`** (`distance_ui.py`, class `Model`) models the stateful
  orchestrator:
  - it holds two colours, a tolerance and an optional metric;
  - it caches the RGB distance, the RGBA distance and the two fill alphas;
  - the Python object is mutated in place, while here every mutator returns
    the new state.

Floats are exact `real`s. `sqrt` and `log2` are parameters of type `RealFns`.
Each fact that depends on them requires `Lawful(f)`, which says:

- `sqrt` is monotone on the non-negative reals;
- `sqrt` undoes squaring there, and squaring undoes `sqrt`;
- `log2` is strictly increasing on the positive reals;
- `log2` turns products into sums.

A Python exception becomes `None`. The source catches every exception a metric
raises in `get_rgb_distance`, and the model covers these cases:

- `log2` of a non-positive value;
- division by a zero normaliser, which can only happen for a `sqrt`/`log2`
  that breaks the laws;
- `max` of an empty list.

The results that matter most:

- the four normalised metrics and the scaled maximum lie in [0,1] for
  in-gamut colours, so each normalisation constant is an upper bound;
- none of the four normalisation constants is reached: the linear metric
  peaks at `1 - EPSILON` (black against white), and the accumulated log
  metric and both Euclidean metrics stay strictly below 1;
- the absolute maximum does exceed 1;
- every metric is symmetric and ignores alpha;
- every metric is zero on equal colour channels. For the three metrics
  without `sqrt` or `log2` this holds for any colours; for the other three it
  is proved in gamut, with a lawful `sqrt`/`log2`;
- with both alphas in [0,1], the RGBA distance lies between the RGB distance
  and the alpha difference. Outside [0,1] this fails: alphas 2 and 2 with an
  RGB distance of 0.5 give an RGBA distance of 1 (`RgbaDistanceEqualAlphas`);
- the fill alpha lies in [0,1];
- the fill alpha never increases with distance when the tolerance is
  positive; at a tolerance of 0 or below this holds only for non-negative
  distances, since a negative distance gets alpha 0 and distance 0 gets 1;
- for a tolerance strictly between 0 and 1, the fill alpha is
  Lipschitz-continuous in the distance with constant `2/tolerance`. At a
  tolerance of 1 or more the alpha is constantly 1. At 0 or below it is a
  step: 1 at distance 0 and 0 everywhere else;
- after any sequence of `set_col`/`set_tol`/`set_distance_func` calls the
  cached outputs equal those of a freshly constructed model with the same
  inputs.

Where the code suggests more than it does, the model follows what the code
does:

- **Tolerance range.** The window's tolerance slider runs from 0 to 1
  (distance_ui.py:165-167), but `Model` itself accepts any real.
  Out-of-range tolerances go through the two boundary branches of
  `get_alpha`, as modelled.
- **Exceptions.** `get_rgb_distance` catches every exception a metric raises
  (distance_ui.py:55-62), but `set_col` (distance_ui.py:41-44) catches
  nothing. An index outside -2..1 raises `IndexError` there, so `SetCol`
  returns `None` for such an index.
- **Bounded metrics.** The metrics after the `# Normalized distance
  functions` comment (distance_models.py:75) divide by the four constants
  `*_MAX` (distance_models.py:16-21). For the log metrics the model proves
  the bound band by band: after `log_clamped`, the floored white and black
  bands are strictly closer than `log2(Sums[i]) - log2(EPSILON)`
  (`FloorRatioBound`, `LogBandBound`). That per-band domination is what the
  proofs of `AccumDiffLogBelowOne` and `EuclideanLogBelowOne` rest on.
- **Normalisation constants.** The names `*_MAX` read as the largest
  distance any two colours reach. The code computes them from the raw band
  totals and ignores the epsilon floor, which keeps black at
  `EPSILON*Sums[i]` rather than 0. So no metric reaches its constant in
  gamut:
  - black against white gives `1 - EPSILON` under the linear metric
    (`BlackWhiteAccumDiff`), its largest value (`AccumDiffBelowOne`);
  - the accumulated log metric stays strictly below 1
    (`AccumDiffLogBelowOne`);
  - so do the two Euclidean metrics (`SpectralEuclideanBelowOne`,
    `EuclideanLogBelowOne`).

## Model

| member | source | states |
|---|---|---|
| `Prelude.Max` | distance_models.py:65-72 | `max` of a non-empty list is an upper bound of every element and equal to one of them |
| `Spectral.BandTotals` | spectral.py:55-59 | `sums` has seven entries, each the blue, red and green weights of that band added |
| `Spectral.PrimariesNonNegative` | spectral.py:37-59 | the three primary tables have seven non-negative weights each, and every band total exceeds 1/4 |
| `Spectral.Diff` | spectral.py:12-13 | `diff(a, b)` is non-negative and equals `a - b` or `b - a` |
| `Spectral.DiffMetric` | spectral.py:12-13 | `diff` is symmetric and is zero exactly when its arguments are equal |
| `Spectral.EpsilonFloor` | spectral.py:69-73 | the channel floor maps 0 to EPSILON and 1 to 1, keeps [0,1] within [EPSILON,1] and never drops a non-negative input below EPSILON |
| `Spectral.EpsilonFloorIncreasing` | spectral.py:69-73 | the channel floor is strictly increasing and so preserves both orderings between channel values |
| `Spectral.ChannelSpectrals` | spectral.py:62-66 | `channel_spectrals` gives seven bands, band `i` being the channel value times weight `i` |
| `Spectral.ChannelSpectralsMonotone` | spectral.py:62-66 | with non-negative weights, a non-negative channel value gives non-negative bands, and a larger value never gives a smaller band |
| `Spectral.RgbToSpectral` | spectral.py:69-83 | `rgb_to_spectral` gives seven bands, band `i` being the sum of the floored channels times their primary weights for that band |
| `Spectral.BandBounds` | spectral.py:69-83 | for channels in [0,1] band `i` lies in `[EPSILON*sums[i], sums[i]]` and is therefore positive |
| `Spectral.BlackSpectrum` | spectral.py:69-83 | black upsamples to `EPSILON*sums[i]` in every band, never to zero |
| `Spectral.WhiteSpectrum` | spectral.py:69-83 | white upsamples to exactly `sums` |
| `Spectral.SpectralMonotone` | spectral.py:69-83 | raising any channel never lowers any band |
| `Spectral.RgbToSpectralLog` | spectral.py:86-87 | `rgb_to_spectral_log` is defined exactly when every band is positive, and then gives `log2` of each band |
| `Spectral.SpectralLogDefined` | spectral.py:86-87 | for channels in [0,1] `rgb_to_spectral_log` never raises |
| `DistanceModels.WeightsMaxPositive` | distance_models.py:16 | `WEIGHTS_MAX` is positive and at least every band total |
| `DistanceModels.BandLogsAboveFloor` | distance_models.py:17 | with a lawful `log2`, every band total lies strictly above `EPSILON` in the log domain |
| `DistanceModels.LogSpans` | distance_models.py:17 | each band's log span is `log2` of its band total minus `log2(EPSILON)`, and is positive under a lawful `log2` |
| `DistanceModels.LogWeightsMax` | distance_models.py:17 | with a lawful `log2`, `LOG_WEIGHTS_MAX` is positive and at least every band's log span, so dividing by it never raises |
| `DistanceModels.WeightsDistanceMax` | distance_models.py:18 | with a lawful `sqrt`, `WEIGHTS_DISTANCE_MAX` is positive and at least every band total |
| `DistanceModels.LogWeightsDistanceMax` | distance_models.py:19-21 | with lawful `sqrt`/`log2`, `LOG_WEIGHTS_DISTANCE_MAX` is positive and at least every band's log span |
| `DistanceModels.LogClamped` | distance_models.py:26-29 | `log_clamped` raises exactly when the floored value is not positive, and whenever it succeeds its value is `log2` of the floored value; a non-negative input always succeeds |
| `DistanceModels.Loggify` | distance_models.py:39-43 | `loggify` succeeds exactly when every element clamps, keeps the length, and holds each element's clamped log |
| `DistanceModels.LoggifyDefined` | distance_models.py:39-43 | a list of non-negative values always loggifies |
| `DistanceModels.RgbaToStraightSpectral` | distance_models.py:32-36 | the converted colour is the spectrum of its three colour channels, with seven bands |
| `DistanceModels.DistanceIgnoresAlpha` | distance_models.py:32-50 | two colour pairs that agree on their colour channels have the same distance under every metric, whatever their alphas |
| `DistanceModels.Diffs` | distance_models.py:55-57 | the pairwise differences have the length of `zip(c1, c2)`, the shorter input, and hold `diff` of each pair |
| `DistanceModels.DiffsSymmetric` | distance_models.py:55-57 | the pairwise differences do not depend on argument order |
| `DistanceModels.AccumDiffLinear` | distance_models.py:55-57 | `accum_diff_linear` is non-negative |
| `DistanceModels.Euclidean` | distance_models.py:60-62 | with a lawful `sqrt`, `euclidean` is non-negative and at least every single channel difference |
| `DistanceModels.MaxDiffAbs` | distance_models.py:65-67 | `max_diff_abs` raises exactly when `zip(c1, c2)` is empty |
| `DistanceModels.MaxDiffAbsBounds` | distance_models.py:65-67 | on non-empty inputs `max_diff_abs` is at least every channel difference, equals one of them, and is at most `accum_diff_linear` |
| `DistanceModels.ScaledDiffs` | distance_models.py:70-72 | the scaled differences have exactly the length of the three-way zip with `sums` (at most seven, and seven when both inputs have seven entries), and each is a channel difference over a positive band total |
| `DistanceModels.MaxDiffScaled` | distance_models.py:70-72 | `max_diff_scaled` raises exactly when the three-way zip is empty |
| `DistanceModels.MaxDiffScaledBounds` | distance_models.py:70-72 | on two seven-band lists `max_diff_scaled` succeeds, is non-negative, is at least every band difference over its band total, and equals one of them |
| `DistanceModels.AccumulatorsSymmetric` | distance_models.py:55-72 | all four accumulators are symmetric in their two arguments |
| `DistanceModels.AccumulatorsVanish` | distance_models.py:55-72 | all four accumulators are zero on two equal vectors; `euclidean` needs a lawful `sqrt`, and the `max` ones need a non-empty vector |
| `DistanceModels.Divide` | distance_models.py:77-94 | dividing by a normaliser raises exactly on a zero divisor; otherwise the quotient times the divisor gives back the dividend, and a dividend in `[0, d]` over a positive `d` lands in [0,1] |
| `DistanceModels.SpectralAccumDiff` | distance_models.py:77-79 | `spectral_accum_diff` is non-negative, at most 1 for in-gamut colours, and zero for equal colour channels |
| `DistanceModels.AccumDiffBelowOne` | distance_models.py:77-79 | for in-gamut colours `spectral_accum_diff` is at most `1 - EPSILON`, so `WEIGHTS_MAX` is never reached |
| `DistanceModels.BlackWhiteAccumDiff` | distance_models.py:77-79 | black against white, whatever their alphas, is at exactly `1 - EPSILON` under `spectral_accum_diff`, the largest value it takes in gamut |
| `DistanceModels.SpectralAccumDiffLog` | distance_models.py:82-84 | `spectral_accum_diff_log` is defined exactly when both spectra loggify and `LOG_WEIGHTS_MAX` is non-zero |
| `DistanceModels.AccumDiffLogInUnit` | distance_models.py:82-84 | for in-gamut colours and lawful `sqrt`/`log2`, `spectral_accum_diff_log` is defined and in [0,1]: `LOG_WEIGHTS_MAX` is an upper bound |
| `DistanceModels.AccumDiffLogBelowOne` | distance_models.py:82-84 | for in-gamut colours and lawful `sqrt`/`log2`, `spectral_accum_diff_log` stays strictly below 1, so `LOG_WEIGHTS_MAX` is never reached |
| `DistanceModels.SpectralEuclidean` | distance_models.py:87-89 | `spectral_euclidean` is defined exactly when `WEIGHTS_DISTANCE_MAX` is non-zero |
| `DistanceModels.SpectralEuclideanInUnit` | distance_models.py:87-89 | for in-gamut colours and lawful `sqrt`, `spectral_euclidean` is defined and in [0,1] |
| `DistanceModels.SpectralEuclideanBelowOne` | distance_models.py:87-89 | for in-gamut colours and lawful `sqrt`, `spectral_euclidean` stays strictly below 1, so `WEIGHTS_DISTANCE_MAX` is never reached |
| `DistanceModels.SpectralEuclideanLog` | distance_models.py:92-94 | `spectral_euclidean_log` is defined exactly when both spectra loggify and `LOG_WEIGHTS_DISTANCE_MAX` is non-zero |
| `DistanceModels.EuclideanLogInUnit` | distance_models.py:92-94 | for in-gamut colours and lawful `sqrt`/`log2`, `spectral_euclidean_log` is defined and in [0,1]: `LOG_WEIGHTS_DISTANCE_MAX` is an upper bound |
| `DistanceModels.EuclideanLogBelowOne` | distance_models.py:92-94 | for in-gamut colours and lawful `sqrt`/`log2`, `spectral_euclidean_log` stays strictly below 1, so `LOG_WEIGHTS_DISTANCE_MAX` is never reached |
| `DistanceModels.FloorRatioBound` | distance_models.py:17-21 | for every band total above 1/4, the floored white band times EPSILON is strictly below the band total times the floored black band |
| `DistanceModels.LogBandBound` | distance_models.py:17-21 | two bands in `[EPSILON*t, t]` differ by strictly less than `log2(t) - log2(EPSILON)` after `log_clamped` |
| `DistanceModels.LogDiffsWithinSpans` | distance_models.py:17-21 | for in-gamut colours both spectra loggify, and every band of the log difference is at least 0 and strictly below that band's term of `LOG_WEIGHTS_MAX` |
| `DistanceModels.SpectralMaxDiffAbs` | distance_models.py:97-98 | `spectral_maxdiff_abs` is non-negative, at least every band difference, equal to one of them, and zero for equal colour channels |
| `DistanceModels.MaxDiffAbsUnbounded` | distance_models.py:97-98 | `spectral_maxdiff_abs` is not normalised: pure red against black is more than 1 apart |
| `DistanceModels.SpectralMaxDiffScaled` | distance_models.py:101-102 | `spectral_maxdiff_scaled` is the largest band difference over its band total: at least every such ratio and equal to one of them; it is non-negative, at most 1 for in-gamut colours, and zero for equal colour channels |
| `DistanceModels.CatalogueShape` | distance_models.py:105-112 | the catalogue has six entries, starts with the linear accumulated difference, lists each metric exactly once under a label of its own, and each metric sits at its catalogue position |
| `DistanceModels.Distance` | distance_models.py:77-102 | running a catalogued metric: the three without `sqrt` or `log2` never raise and are non-negative, and so is the Euclidean one under a lawful `sqrt`; the linear and scaled-maximum ones stay within [0,1] in gamut; the three without `sqrt` or `log2` give exactly 0 on equal colour channels |
| `DistanceModels.DistanceSymmetric` | distance_models.py:77-102 | every catalogued metric gives the same result with its colours swapped |
| `DistanceModels.DistanceZeroOnSameColour` | distance_models.py:77-102 | with lawful `sqrt`/`log2`, every catalogued metric gives exactly 0 for an in-gamut colour against a colour with the same colour channels |
| `DistanceModels.DistanceDefined` | distance_models.py:77-102 | with lawful `sqrt`/`log2` and in-gamut colours, no catalogued metric raises, and every result is non-negative |
| `DistanceModels.BoundedMetricsInUnit` | distance_models.py:77-102 | with lawful `sqrt`/`log2` and in-gamut colours, every catalogued metric except the absolute maximum lies in [0,1] |
| `ToleranceModel.GetAlpha` | distance_ui.py:75-93 | no distance gives no alpha; a tolerance of at least 1 gives 1; a non-positive tolerance gives 1 only at distance exactly 0; otherwise the alpha is 1 up to half the tolerance, falls linearly to 0 at the tolerance, and is 0 beyond; every alpha lies in [0,1] |
| `ToleranceModel.AlphaNonIncreasing` | distance_ui.py:75-93 | a larger distance never gives a larger alpha; with a non-positive tolerance this holds for non-negative distances |
| `ToleranceModel.AlphaLipschitz` | distance_ui.py:85-93 | for a tolerance in (0,1), alpha drops by at most `2/tolerance` times the increase in distance, so the curve has no jump at either knee |
| `ToleranceModel.ColourFactor` | distance_ui.py:68-72 | the colour weight of the RGBA blend lies in [0,1] when both alphas do |
| `ToleranceModel.GetRgbaDistance` | distance_ui.py:64-73 | the RGBA distance is defined exactly when the RGB distance is |
| `ToleranceModel.RgbaDistanceOpaque` | distance_ui.py:64-73 | for two opaque colours, the RGBA distance equals the RGB distance |
| `ToleranceModel.RgbaDistanceTransparentOpaque` | distance_ui.py:64-73 | a fully transparent colour against an opaque one is at RGBA distance 1, whatever their RGB distance |
| `ToleranceModel.RgbaDistanceBetween` | distance_ui.py:64-73 | with alphas in [0,1], the RGBA distance lies between the RGB distance and the alpha difference, and in [0,1] when the RGB distance is |
| `ToleranceModel.RgbaDistanceEqualAlphas` | distance_ui.py:64-73 | two equal alphas scale the RGB distance by that alpha, so outside [0,1] the RGBA distance can leave the range between the RGB distance and the alpha difference: alphas 2 and 2 take 0.5 to 1 |
| `ToleranceModel.GetRgbDistance` | distance_ui.py:55-62 | no metric selected gives no distance; otherwise the selected metric's result, with `None` where it raises |
| `ToleranceModel.SelectedMetricGivesDistance` | distance_ui.py:55-62 | with lawful `sqrt`/`log2` and in-gamut colours, there is an RGB distance exactly when a metric is selected, and it is non-negative: the exception path is never taken |
| `ToleranceModel.Consistent` | distance_ui.py:35-39 | when the cached outputs are those the inputs give, the four outputs are present or absent together, absent while no metric is selected, and both alphas lie in [0,1] |
| `ToleranceModel.UpdateValues` | distance_ui.py:35-39 | recomputation changes none of the inputs and leaves all four outputs consistent with them |
| `ToleranceModel.Init` | distance_ui.py:25-33 | a new model holds the given colours, tolerance and metric, with consistent outputs |
| `ToleranceModel.SetCol` | distance_ui.py:41-44 | `set_col` raises exactly for an index outside -2..1. Otherwise it replaces the indexed colour, with negative indices counting from the end, leaves the other colour, the metric and the tolerance alone, and leaves the outputs consistent |
| `ToleranceModel.SetTol` | distance_ui.py:46-49 | `set_tol` replaces the tolerance, keeps the colours, the metric and both distances, and gives an alpha exactly where a distance exists |
| `ToleranceModel.SetDistanceFunc` | distance_ui.py:51-53 | `set_distance_func` replaces the metric and leaves the outputs consistent; with no metric, all four outputs are `None` |
| `ToleranceModel.NoMetricNoOutputs` | distance_ui.py:51-62 | a consistent model with no metric selected has no distances and no alphas |
| `ToleranceModel.ConsistentIsFresh` | distance_ui.py:25-39 | a model whose outputs are consistent equals the freshly constructed model with the same inputs, so no stale state exists |
| `ToleranceModel.SetTolPreservesConsistency` | distance_ui.py:46-49 | recomputing only the alphas in `set_tol` still leaves every output consistent, because the distances do not depend on the tolerance |
| `ToleranceModel.Apply` | distance_ui.py:41-53 | a single mutator call raises exactly when it is `set_col` with a bad index |
| `ToleranceModel.RunSucceeds` | distance_ui.py:41-53 | a sequence of mutator calls raises exactly when one of them is `set_col` with a bad index |
| `ToleranceModel.ApplyPreservesConsistency` | distance_ui.py:41-53 | every mutator call on a consistent model leaves it consistent |
| `ToleranceModel.RunPreservesConsistency` | distance_ui.py:25-53 | any sequence of mutator calls on a consistent model leaves it consistent |
| `ToleranceModel.SessionIsFresh` | distance_ui.py:25-53 | whatever sequence of calls follows construction, the resulting model equals a freshly constructed one with the final inputs |
| `ToleranceModel.OutputsInUnit` | distance_ui.py:35-93 | with lawful `sqrt`/`log2`, in-gamut colours, alphas in [0,1] and any metric but the absolute maximum, all four cached outputs are present and in [0,1] |

## Left out

- The GTK window, its widgets and callbacks, `go()` and the `reload_module`
  hot-reload helper (distance_ui.py:16-20, 96 onward) are presentation, not
  the model.
- The exception handler in `get_rgb_distance` also prints the exception. The
  printing is I/O and is not modelled. The caught failure itself is modelled
  as `None`.
- `T_MATRIX_SMALL` (spectral.py:19-35) is marked unused in the source and is
  not modelled.
- `zipwith` (spectral.py:8-9) is used nowhere in the core and is not modelled.
- `log2` (spectral.py:4-5) is `math.log(v) / math.log(2)`, and `math.sqrt` is
  the square root. Both are left abstract as the `RealFns` parameter. Only the
  laws in `Lawful` are assumed of them, not their exact values, so no
  normalisation constant is computed numerically.
- IEEE-754 rounding is not modelled: floats are exact reals. A result that
  lands slightly above 1 through rounding is therefore outside the model.
- `loggify` and `spectralize` (distance_models.py:39-50) are higher-order
  wrappers over variadic Python functions. The model composes
  `RgbaToStraightSpectral`, `Loggify` and the accumulators directly inside
  each `spectral_*` metric. The tuple wrapping in `rgba_to_straight_spectral`
  (distance_models.py:34-36) is an artefact of calling with `*args`, so the
  model takes the colour itself.
- A distance function in the source is any Python callable. The model takes a
  metric from the six-entry catalogue instead. Arbitrary user callables,
  including ones that do not return numbers, are not modelled.
- The model's colours are reals. Values of other types passed to `set_col`,
  which the source turns into a tuple, are not modelled.
- A colour in the model always has exactly four components. In the source a
  three-component colour passes the metrics, which slice `[:3]`. Once a
  metric has returned a distance, `get_rgba_distance` raises an uncaught
  `IndexError` at `c[3]` (distance_ui.py:68), after `_update_values` has
  already replaced `rgb_distance` (distance_ui.py:36-37). The object is then
  left with stale outputs. This failure is not modelled.
- `DistanceModels.DistanceZeroOnSameColour` requires the first colour to be
  in gamut. For log metrics on colours far outside [0,1], a band can be
  non-positive and `log2` raises, so the source promises nothing there either.

=== FILE: distance_models.dfy ===
/**
 * The distance-metric library (distance_models.py): four generic
 * accumulators over two equal-length vectors, the wrappers that turn RGBA
 * colours into spectra (`spectralize`) and spectra into clamped logarithms
 * (`loggify`), the four normalisation constants derived from the band totals,
 * and the six catalogued spectral metrics.
 *
 * A Python exception raised while a metric runs becomes `None`: `log2` of a
 * non-positive argument, `max` of an empty list, and division by a zero
 * normalisation constant (which lawful `sqrt`/`log2` never produce).
 */
module DistanceModels {
  import opened Prelude
  import opened Spectral

  /** An RGBA colour: the three colour channels and the alpha channel. */
  datatype Rgba = Rgba(r: real, g: real, b: real, a: real)

  /** Two colours with the same red, green and blue channels; alpha may differ. */
  predicate SameRgb(c1: Rgba, c2: Rgba)
  {
    c1.r == c2.r && c1.g == c2.g && c1.b == c2.b
  }

  /** A colour whose red, green and blue channels lie in [0,1]; alpha is unconstrained. */
  predicate InGamut(c: Rgba)
  {
    InUnit(c.r) && InUnit(c.g) && InUnit(c.b)
  }

  // ---------------------------------------------------------------------
  // Normalisation constants

  /** `WEIGHTS_MAX`: the sum of the band totals. */
  const WEIGHTS_MAX: real := Sum(Sums)

  lemma WeightsMaxPositive()
    ensures 0.0 < WEIGHTS_MAX
    ensures forall i :: 0 <= i < NUM_WAVES ==> Sums[i] <= WEIGHTS_MAX
  {
    PrimariesNonNegative();
    SumPositive(Sums);
    SumDominates(Sums);
  }

  /** Every band total is above `EPSILON`, so it lies strictly above `EPSILON` in the log domain. */
  lemma BandLogsAboveFloor(f: RealFns)
    ensures Lawful(f) ==> forall i :: 0 <= i < NUM_WAVES ==> f.log2(EPSILON) < f.log2(Sums[i])
  {
    PrimariesNonNegative();
    if Lawful(f) {
      forall i | 0 <= i < NUM_WAVES
        ensures f.log2(EPSILON) < f.log2(Sums[i])
      {
        Log2Increasing(f, EPSILON, Sums[i]);
      }
    }
  }

  /**
   * Per band, `log2(Sums[i]) - log2(EPSILON)`: the log-domain span of that
   * band, which a lawful `log2` makes positive.
   */
  function LogSpans(f: RealFns): (s: seq<real>)
    ensures |s| == NUM_WAVES
    ensures forall i :: 0 <= i < NUM_WAVES ==> s[i] + f.log2(EPSILON) == f.log2(Sums[i])
    ensures Lawful(f) ==> forall i :: 0 <= i < NUM_WAVES ==> 0.0 < s[i]
  {
    BandLogsAboveFloor(f);
    seq(NUM_WAVES, i requires 0 <= i < NUM_WAVES => f.log2(Sums[i]) - f.log2(EPSILON))
  }

  /** `LOG_WEIGHTS_MAX`: the total log span, positive and at least every band's span. */
  function LogWeightsMax(f: RealFns): (r: real)
    ensures Lawful(f) ==> 0.0 < r
    ensures Lawful(f) ==> forall i :: 0 <= i < NUM_WAVES ==> LogSpans(f)[i] <= r
  {
    SumDominates(LogSpans(f));
    Sum(LogSpans(f))
  }

  /**
   * `WEIGHTS_DISTANCE_MAX`: the Euclidean norm of the band totals, positive
   * and at least every band total.
   */
  function WeightsDistanceMax(f: RealFns): (r: real)
    ensures Lawful(f) ==> 0.0 < r
    ensures Lawful(f) ==> forall i :: 0 <= i < NUM_WAVES ==> Sums[i] <= r
  {
    PrimariesNonNegative();
    NormBounds(f, Sums);
    f.sqrt(Sum(Squares(Sums)))
  }

  /**
   * `LOG_WEIGHTS_DISTANCE_MAX`: the Euclidean norm of the log spans, positive
   * and at least every band's span.
   */
  function LogWeightsDistanceMax(f: RealFns): (r: real)
    ensures Lawful(f) ==> 0.0 < r
    ensures Lawful(f) ==> forall i :: 0 <= i < NUM_WAVES ==> LogSpans(f)[i] <= r
  {
    NormBounds(f, LogSpans(f));
    f.sqrt(Sum(Squares(LogSpans(f))))
  }

  // ---------------------------------------------------------------------
  // Conversion wrappers

  /**
   * `log_clamped`: `log2` of the epsilon-floored value.  The argument is at
   * least `EPSILON` for every non-negative input; for an input so negative
   * that it is not positive, `log2` raises and the result is `None`.
   */
  function LogClamped(f: RealFns, x: real): (r: Option<real>)
    ensures r.Some? <==> 0.0 < EpsilonFloor(x)
    ensures r.Some? ==> r.value == f.log2(EpsilonFloor(x))
    ensures 0.0 <= x ==> r == Some(f.log2(EpsilonFloor(x)))
  {
    var arg := EpsilonFloor(x);
    if 0.0 < arg then Some(f.log2(arg)) else None
  }

  /** `loggify`'s element-wise map of `log_clamped`; any failing element fails the whole. */
  function Loggify(f: RealFns, s: seq<real>): (r: Option<seq<real>>)
    ensures r.Some? <==> forall i :: 0 <= i < |s| ==> LogClamped(f, s[i]).Some?
    ensures r.Some? ==> |r.value| == |s|
    ensures r.Some? ==> forall i :: 0 <= i < |s| ==> LogClamped(f, s[i]) == Some(r.value[i])
  {
    if forall i :: 0 <= i < |s| ==> LogClamped(f, s[i]).Some?
    then Some(seq(|s|, i requires 0 <= i < |s| && LogClamped(f, s[i]).Some? => LogClamped(f, s[i]).value))
    else None
  }

  /** A vector of non-negative reals can always be loggified. */
  lemma LoggifyDefined(f: RealFns, s: seq<real>)
    requires forall i :: 0 <= i < |s| ==> 0.0 <= s[i]
    ensures Loggify(f, s).Some?
  {
  }

  /** `rgba_to_straight_spectral`: the spectrum of the colour channels; alpha is dropped. */
  function RgbaToStraightSpectral(c: Rgba): (s: seq<real>)
    ensures s == RgbToSpectral(c.r, c.g, c.b)
    ensures |s| == NUM_WAVES
  {
    RgbToSpectral(c.r, c.g, c.b)
  }

  // ---------------------------------------------------------------------
  // Generic distance functions (over `zip`, which stops at the shorter list)

  /** `abs(i - j)` for the pairs of `zip(c1, c2)`. */
  function Diffs(c1: seq<real>, c2: seq<real>): (d: seq<real>)
    ensures |d| == if |c1| <= |c2| then |c1| else |c2|
    ensures forall i :: 0 <= i < |d| ==> d[i] == Diff(c1[i], c2[i])
  {
    var n := if |c1| <= |c2| then |c1| else |c2|;
    seq(n, i requires 0 <= i < n => Diff(c1[i], c2[i]))
  }

  lemma DiffsSymmetric(c1: seq<real>, c2: seq<real>)
    ensures Diffs(c1, c2) == Diffs(c2, c1)
  {
    var d, e := Diffs(c1, c2), Diffs(c2, c1);
    forall i | 0 <= i < |d|
      ensures d[i] == e[i]
    {
      DiffMetric(c1[i], c2[i]);
    }
  }

  /** `accum_diff_linear`: the sum of the channel-wise absolute differences. */
  function AccumDiffLinear(c1: seq<real>, c2: seq<real>): (r: real)
    ensures 0.0 <= r
  {
    SumNonNegative(Diffs(c1, c2));
    Sum(Diffs(c1, c2))
  }

  /**
   * `euclidean`: the square root of the sum of squared channel differences.
   * With a lawful `sqrt` it is non-negative and at least every single
   * channel difference.
   */
  function Euclidean(f: RealFns, c1: seq<real>, c2: seq<real>): (r: real)
    ensures Lawful(f) ==> 0.0 <= r
    ensures Lawful(f) ==> forall i :: 0 <= i < |Diffs(c1, c2)| ==> Diff(c1[i], c2[i]) <= r
  {
    NormBounds(f, Diffs(c1, c2));
    f.sqrt(Sum(Squares(Diffs(c1, c2))))
  }

  /** `max_diff_abs`: the largest channel-wise absolute difference; `max` of nothing raises. */
  function MaxDiffAbs(c1: seq<real>, c2: seq<real>): (r: Option<real>)
    ensures r.Some? <==> |Diffs(c1, c2)| > 0
  {
    var d := Diffs(c1, c2);
    if |d| == 0 then None else Some(Max(d))
  }

  /** The length of `zip(c1, c2, Sums)`. */
  function ScaledLength(c1: seq<real>, c2: seq<real>): (n: nat)
    ensures n <= NUM_WAVES && n <= |c1| && n <= |c2|
    ensures n == NUM_WAVES || n == |c1| || n == |c2|
  {
    if |c1| <= |c2| && |c1| <= NUM_WAVES then |c1|
    else if |c2| <= NUM_WAVES then |c2|
    else NUM_WAVES
  }

  /** `abs(i - j) / k` for the triples of `zip(c1, c2, Sums)`. */
  function ScaledDiffs(c1: seq<real>, c2: seq<real>): (d: seq<real>)
    ensures |d| == ScaledLength(c1, c2)
    ensures |d| <= NUM_WAVES && |d| <= |c1| && |d| <= |c2|
    ensures |c1| >= NUM_WAVES && |c2| >= NUM_WAVES ==> |d| == NUM_WAVES
    ensures forall i :: 0 <= i < |d| ==> 0.0 < Sums[i] && d[i] == Diff(c1[i], c2[i]) / Sums[i]
  {
    seq(ScaledLength(c1, c2), i requires 0 <= i < ScaledLength(c1, c2) => Diff(c1[i], c2[i]) / Sums[i])
  }

  /** `max_diff_scaled`: the largest band difference relative to that band's total. */
  function MaxDiffScaled(c1: seq<real>, c2: seq<real>): (r: Option<real>)
    ensures r.Some? <==> |ScaledDiffs(c1, c2)| > 0
  {
    var d := ScaledDiffs(c1, c2);
    if |d| == 0 then None else Some(Max(d))
  }

  /**
   * On two seven-band lists `max_diff_scaled` succeeds with the largest
   * band difference relative to its band total: at least every such ratio,
   * equal to one of them, and non-negative.
   */
  lemma MaxDiffScaledBounds(c1: seq<real>, c2: seq<real>)
    requires |c1| >= NUM_WAVES && |c2| >= NUM_WAVES
    ensures MaxDiffScaled(c1, c2).Some?
    ensures 0.0 <= MaxDiffScaled(c1, c2).value
    ensures forall i :: 0 <= i < NUM_WAVES ==> Diff(c1[i], c2[i]) / Sums[i] <= MaxDiffScaled(c1, c2).value
    ensures exists i :: 0 <= i < NUM_WAVES && Diff(c1[i], c2[i]) / Sums[i] == MaxDiffScaled(c1, c2).value
  {
    var d := ScaledDiffs(c1, c2);
    var k :| 0 <= k < |d| && d[k] == Max(d);
    assert 0.0 <= d[0] by { QuotientFacts(Diff(c1[0], c2[0]), Sums[0]); }
  }

  /** The four accumulators are symmetric in their two arguments. */
  lemma AccumulatorsSymmetric(f: RealFns, c1: seq<real>, c2: seq<real>)
    ensures AccumDiffLinear(c1, c2) == AccumDiffLinear(c2, c1)
    ensures Euclidean(f, c1, c2) == Euclidean(f, c2, c1)
    ensures MaxDiffAbs(c1, c2) == MaxDiffAbs(c2, c1)
    ensures MaxDiffScaled(c1, c2) == MaxDiffScaled(c2, c1)
  {
    DiffsSymmetric(c1, c2);
    var d, e := ScaledDiffs(c1, c2), ScaledDiffs(c2, c1);
    forall i | 0 <= i < |d|
      ensures d[i] == e[i]
    {
      DiffMetric(c1[i], c2[i]);
    }
    assert d == e;
  }

  /** A non-empty list of zeros has maximum zero. */
  lemma MaxOfZeros(s: seq<real>)
    requires |s| > 0
    requires forall i :: 0 <= i < |s| ==> s[i] == 0.0
    ensures Max(s) == 0.0
  {
    var k :| 0 <= k < |s| && s[k] == Max(s);
  }

  /** The channel differences of a vector with itself are all zero. */
  lemma DiffsOfSelf(c: seq<real>)
    ensures |Diffs(c, c)| == |c|
    ensures forall i :: 0 <= i < |c| ==> Diffs(c, c)[i] == 0.0
    ensures forall i :: 0 <= i < |ScaledDiffs(c, c)| ==> ScaledDiffs(c, c)[i] == 0.0
  {
    forall i | 0 <= i < |c|
      ensures Diffs(c, c)[i] == 0.0
    {
      DiffMetric(c[i], c[i]);
    }
    forall i | 0 <= i < |ScaledDiffs(c, c)|
      ensures ScaledDiffs(c, c)[i] == 0.0
    {
      DiffMetric(c[i], c[i]);
    }
  }

  /** The four accumulators are zero on two equal vectors (the `max` ones when there is a pair to compare). */
  lemma AccumulatorsVanish(f: RealFns, c: seq<real>)
    ensures AccumDiffLinear(c, c) == 0.0
    ensures Lawful(f) ==> Euclidean(f, c, c) == 0.0
    ensures |c| > 0 ==> MaxDiffAbs(c, c) == Some(0.0)
    ensures |c| > 0 ==> MaxDiffScaled(c, c) == Some(0.0)
  {
    DiffsOfSelf(c);
    var d := Diffs(c, c);
    SumZero(d);
    var sq := Squares(d);
    forall i | 0 <= i < |sq|
      ensures sq[i] == 0.0
    {
      assert sq[i] == Sq(d[i]);
    }
    SumZero(sq);
    if Lawful(f) {
      assert f.sqrt(Sq(0.0)) == 0.0;
    }
    if |c| > 0 {
      MaxOfZeros(d);
      MaxOfZeros(ScaledDiffs(c, c));
    }
  }

  /**
   * `max_diff_abs` bounds every channel difference from above, equals one of
   * them, and never exceeds `accum_diff_linear` on the same inputs.
   */
  lemma MaxDiffAbsBounds(c1: seq<real>, c2: seq<real>)
    requires |c1| > 0 && |c2| > 0
    ensures MaxDiffAbs(c1, c2).Some?
    ensures forall i :: 0 <= i < |c1| && i < |c2| ==> Diff(c1[i], c2[i]) <= MaxDiffAbs(c1, c2).value
    ensures exists i :: 0 <= i < |c1| && i < |c2| && Diff(c1[i], c2[i]) == MaxDiffAbs(c1, c2).value
    ensures MaxDiffAbs(c1, c2).value <= AccumDiffLinear(c1, c2)
  {
    var d := Diffs(c1, c2);
    var k :| 0 <= k < |d| && d[k] == Max(d);
    SumBoundsTerm(d, k);
  }

  // ---------------------------------------------------------------------
  // Normalised spectral metrics

  /** Python's `/`: division by zero raises, giving `None`. */
  function Divide(x: real, d: real): (r: Option<real>)
    ensures r.Some? <==> d != 0.0
    ensures r.Some? ==> r.value * d == x
    ensures 0.0 < d && 0.0 <= x ==> 0.0 <= r.value
    ensures 0.0 < d && 0.0 <= x <= d ==> r.value <= 1.0
    ensures d != 0.0 && x == 0.0 ==> r == Some(0.0)
  {
    QuotientFacts(x, d);
    if d == 0.0 then None else Some(x / d)
  }

  /** Two in-gamut colours differ in band `i` by at most that band's total. */
  lemma BandDifferenceBound(c1: Rgba, c2: Rgba)
    requires InGamut(c1) && InGamut(c2)
    ensures forall i :: 0 <= i < NUM_WAVES ==>
      Diff(RgbaToStraightSpectral(c1)[i], RgbaToStraightSpectral(c2)[i]) <= Sums[i]
  {
    BandBounds(c1.r, c1.g, c1.b);
    BandBounds(c2.r, c2.g, c2.b);
    PrimariesNonNegative();
  }

  /** Summed band difference: bounded by `WEIGHTS_MAX` in gamut, zero for the same colour. */
  lemma AccumDiffWithinWeights(c1: Rgba, c2: Rgba)
    ensures InGamut(c1) && InGamut(c2) ==>
      AccumDiffLinear(RgbaToStraightSpectral(c1), RgbaToStraightSpectral(c2)) <= WEIGHTS_MAX
    ensures SameRgb(c1, c2) ==> AccumDiffLinear(RgbaToStraightSpectral(c1), RgbaToStraightSpectral(c2)) == 0.0
  {
    var s1, s2 := RgbaToStraightSpectral(c1), RgbaToStraightSpectral(c2);
    if InGamut(c1) && InGamut(c2) {
      BandDifferenceBound(c1, c2);
      SumMonotone(Diffs(s1, s2), Sums);
    }
    if SameRgb(c1, c2) {
      assert s1 == s2;
      DiffsOfSelf(s1);
      SumZero(Diffs(s1, s1));
    }
  }

  /** `spectral_accum_diff`: summed band differences over `WEIGHTS_MAX`; in [0,1] for in-gamut colours. */
  function SpectralAccumDiff(c1: Rgba, c2: Rgba): (r: real)
    ensures 0.0 <= r
    ensures InGamut(c1) && InGamut(c2) ==> r <= 1.0
    ensures SameRgb(c1, c2) ==> r == 0.0
  {
    var x := AccumDiffLinear(RgbaToStraightSpectral(c1), RgbaToStraightSpectral(c2));
    WeightsMaxPositive();
    AccumDiffWithinWeights(c1, c2);
    QuotientFacts(x, WEIGHTS_MAX);
    x / WEIGHTS_MAX
  }

  /**
   * `WEIGHTS_MAX` is an upper bound that is never reached: every band of an
   * in-gamut colour keeps the floor `EPSILON*Sums[i]`, so no two in-gamut
   * colours are further apart than `1 - EPSILON` under the linear metric.
   */
  lemma AccumDiffBelowOne(c1: Rgba, c2: Rgba)
    requires InGamut(c1) && InGamut(c2)
    ensures SpectralAccumDiff(c1, c2) <= 1.0 - EPSILON
  {
    var x := AccumDiffLinear(RgbaToStraightSpectral(c1), RgbaToStraightSpectral(c2));
    AccumDiffWithinFloorGap(c1, c2);
    WeightsMaxPositive();
    QuotientAtMost(x, WEIGHTS_MAX, 1.0 - EPSILON);
    assert SpectralAccumDiff(c1, c2) == x / WEIGHTS_MAX;
  }

  /** Summed band difference of in-gamut colours: at most `1 - EPSILON` of `WEIGHTS_MAX`. */
  lemma AccumDiffWithinFloorGap(c1: Rgba, c2: Rgba)
    requires InGamut(c1) && InGamut(c2)
    ensures AccumDiffLinear(RgbaToStraightSpectral(c1), RgbaToStraightSpectral(c2)) <= Mul(1.0 - EPSILON, WEIGHTS_MAX)
  {
    BandBounds(c1.r, c1.g, c1.b);
    BandBounds(c2.r, c2.g, c2.b);
    PrimariesNonNegative();
    FlooredDiffSum(RgbaToStraightSpectral(c1), RgbaToStraightSpectral(c2), Sums);
  }



  /**
   * Two lists that lie band by band in `[EPSILON*t[i], t[i]]` differ in sum
   * by at most `1 - EPSILON` of the sum of `t`.
   */
  lemma FlooredDiffSum(s1: seq<real>, s2: seq<real>, t: seq<real>)
    requires |s1| == |t| && |s2| == |t|
    requires forall i :: 0 <= i < |t| ==> EPSILON * t[i] <= s1[i] <= t[i] && EPSILON * t[i] <= s2[i] <= t[i]
    ensures Sum(Diffs(s1, s2)) <= Mul(1.0 - EPSILON, Sum(t))
  {
    var d := Diffs(s1, s2);
    forall i | 0 <= i < |d|
      ensures d[i] <= (1.0 - EPSILON) * t[i]
    {
      BandGapBound(s1[i], s2[i], t[i]);
    }
    SumBelowScaled(d, t, 1.0 - EPSILON);
  }

  /** Two values in `[EPSILON*t, t]` are at most `(1 - EPSILON)*t` apart. */
  lemma BandGapBound(x: real, y: real, t: real)
    requires EPSILON * t <= x <= t && EPSILON * t <= y <= t
    ensures Diff(x, y) <= (1.0 - EPSILON) * t
  {
  }

  /**
   * Black against white, whatever their alphas, reaches the linear metric's
   * largest value, exactly `1 - EPSILON`.
   */
  lemma BlackWhiteAccumDiff(a1: real, a2: real)
    ensures SpectralAccumDiff(Rgba(0.0, 0.0, 0.0, a1), Rgba(1.0, 1.0, 1.0, a2)) == 1.0 - EPSILON
  {
    var s1 := RgbaToStraightSpectral(Rgba(0.0, 0.0, 0.0, a1));
    var s2 := RgbaToStraightSpectral(Rgba(1.0, 1.0, 1.0, a2));
    var x := AccumDiffLinear(s1, s2);
    assert x == Mul(1.0 - EPSILON, WEIGHTS_MAX) by {
      BlackSpectrum();
      WhiteSpectrum();
      PrimariesNonNegative();
      FloorGapSum(s1, s2, Sums);
    }
    WeightsMaxPositive();
    QuotientOfMultiple(x, WEIGHTS_MAX, 1.0 - EPSILON);
    assert SpectralAccumDiff(Rgba(0.0, 0.0, 0.0, a1), Rgba(1.0, 1.0, 1.0, a2)) == x / WEIGHTS_MAX;
  }

  /** A list at the floor `EPSILON*t[i]` against `t` itself differs in sum by exactly `1 - EPSILON` of `t`'s. */
  lemma FloorGapSum(s1: seq<real>, s2: seq<real>, t: seq<real>)
    requires |s1| == |t| && |s2| == |t|
    requires forall i :: 0 <= i < |t| ==> 0.0 <= t[i] && s1[i] == EPSILON * t[i] && s2[i] == t[i]
    ensures Sum(Diffs(s1, s2)) == Mul(1.0 - EPSILON, Sum(t))
  {
    var d := Diffs(s1, s2);
    forall i | 0 <= i < |d|
      ensures d[i] == (1.0 - EPSILON) * t[i]
    {
      assert d[i] == Diff(s1[i], s2[i]);
    }
    SumScale(d, t, 1.0 - EPSILON);
  }


  /** `spectral_accum_diff_log`: summed differences of clamped log bands over `LOG_WEIGHTS_MAX`. */
  function SpectralAccumDiffLog(f: RealFns, c1: Rgba, c2: Rgba): (r: Option<real>)
    ensures r.Some? <==>
      Loggify(f, RgbaToStraightSpectral(c1)).Some? && Loggify(f, RgbaToStraightSpectral(c2)).Some? &&
      LogWeightsMax(f) != 0.0
  {
    match (Loggify(f, RgbaToStraightSpectral(c1)), Loggify(f, RgbaToStraightSpectral(c2)))
    case (Some(l1), Some(l2)) => Divide(AccumDiffLinear(l1, l2), LogWeightsMax(f))
    case _ => None
  }

  /** `spectral_euclidean`: the Euclidean band distance over `WEIGHTS_DISTANCE_MAX`. */
  function SpectralEuclidean(f: RealFns, c1: Rgba, c2: Rgba): (r: Option<real>)
    ensures r.Some? <==> WeightsDistanceMax(f) != 0.0
  {
    Divide(Euclidean(f, RgbaToStraightSpectral(c1), RgbaToStraightSpectral(c2)), WeightsDistanceMax(f))
  }

  /** `spectral_euclidean_log`: the Euclidean distance of clamped log bands over `LOG_WEIGHTS_DISTANCE_MAX`. */
  function SpectralEuclideanLog(f: RealFns, c1: Rgba, c2: Rgba): (r: Option<real>)
    ensures r.Some? <==>
      Loggify(f, RgbaToStraightSpectral(c1)).Some? && Loggify(f, RgbaToStraightSpectral(c2)).Some? &&
      LogWeightsDistanceMax(f) != 0.0
  {
    match (Loggify(f, RgbaToStraightSpectral(c1)), Loggify(f, RgbaToStraightSpectral(c2)))
    case (Some(l1), Some(l2)) => Divide(Euclidean(f, l1, l2), LogWeightsDistanceMax(f))
    case _ => None
  }

  /** The two `max` accumulators give zero on colours with the same colour channels. */
  lemma MaxDiffsOfSameRgb(c1: Rgba, c2: Rgba)
    ensures SameRgb(c1, c2) ==> MaxDiffAbs(RgbaToStraightSpectral(c1), RgbaToStraightSpectral(c2)) == Some(0.0)
    ensures SameRgb(c1, c2) ==> MaxDiffScaled(RgbaToStraightSpectral(c1), RgbaToStraightSpectral(c2)) == Some(0.0)
  {
    if SameRgb(c1, c2) {
      var s := RgbaToStraightSpectral(c1);
      assert RgbaToStraightSpectral(c2) == s;
      DiffsOfSelf(s);
      MaxOfZeros(Diffs(s, s));
      MaxOfZeros(ScaledDiffs(s, s));
    }
  }

  /** `spectral_maxdiff_abs`: the largest band difference, unnormalised. */
  function SpectralMaxDiffAbs(c1: Rgba, c2: Rgba): (r: real)
    ensures 0.0 <= r
    ensures forall i :: 0 <= i < NUM_WAVES ==>
      Diff(RgbaToStraightSpectral(c1)[i], RgbaToStraightSpectral(c2)[i]) <= r
    ensures exists i :: 0 <= i < NUM_WAVES && Diff(RgbaToStraightSpectral(c1)[i], RgbaToStraightSpectral(c2)[i]) == r
    ensures SameRgb(c1, c2) ==> r == 0.0
  {
    var s1, s2 := RgbaToStraightSpectral(c1), RgbaToStraightSpectral(c2);
    MaxDiffAbsBounds(s1, s2);
    MaxDiffsOfSameRgb(c1, c2);
    MaxDiffAbs(s1, s2).value
  }

  /** Each scaled band difference of two in-gamut colours lies in [0,1]. */
  lemma ScaledDiffsInUnit(c1: Rgba, c2: Rgba)
    ensures InGamut(c1) && InGamut(c2) ==> forall i :: 0 <= i < NUM_WAVES ==>
      ScaledDiffs(RgbaToStraightSpectral(c1), RgbaToStraightSpectral(c2))[i] <= 1.0
  {
    if InGamut(c1) && InGamut(c2) {
      var s1, s2 := RgbaToStraightSpectral(c1), RgbaToStraightSpectral(c2);
      var d := ScaledDiffs(s1, s2);
      BandDifferenceBound(c1, c2);
      forall i | 0 <= i < NUM_WAVES
        ensures d[i] <= 1.0
      {
        QuotientFacts(Diff(s1[i], s2[i]), Sums[i]);
      }
    }
  }

  /** `spectral_maxdiff_scaled`: the largest band difference relative to its band total; in [0,1] in gamut. */
  function SpectralMaxDiffScaled(c1: Rgba, c2: Rgba): (r: real)
    ensures 0.0 <= r
    ensures forall i :: 0 <= i < NUM_WAVES ==>
      Diff(RgbaToStraightSpectral(c1)[i], RgbaToStraightSpectral(c2)[i]) / Sums[i] <= r
    ensures exists i :: 0 <= i < NUM_WAVES && Diff(RgbaToStraightSpectral(c1)[i], RgbaToStraightSpectral(c2)[i]) / Sums[i] == r
    ensures InGamut(c1) && InGamut(c2) ==> r <= 1.0
    ensures SameRgb(c1, c2) ==> r == 0.0
  {
    var s1, s2 := RgbaToStraightSpectral(c1), RgbaToStraightSpectral(c2);
    MaxDiffScaledBounds(s1, s2);
    MaxDiffsOfSameRgb(c1, c2);
    ScaledDiffsInUnit(c1, c2);
    MaxDiffScaled(s1, s2).value
  }

  /** Squaring keeps a pointwise bound between non-negative lists, and so does their sum. */
  lemma SquaresMonotone(d: seq<real>, t: seq<real>)
    requires |d| == |t|
    requires forall i :: 0 <= i < |d| ==> 0.0 <= d[i] <= t[i]
    ensures Sum(Squares(d)) <= Sum(Squares(t))
  {
    forall i | 0 <= i < |d|
      ensures Squares(d)[i] <= Squares(t)[i]
    {
      ScaleBetween(d[i], 0.0, t[i], d[i]);
      ScaleBetween(d[i], 0.0, t[i], t[i]);
    }
    SumMonotone(Squares(d), Squares(t));
  }

  /** For in-gamut colours the sum of squared band differences is at most the sum of squared band totals. */
  lemma SquaredDifferenceBound(c1: Rgba, c2: Rgba)
    requires InGamut(c1) && InGamut(c2)
    ensures Sum(Squares(Diffs(RgbaToStraightSpectral(c1), RgbaToStraightSpectral(c2)))) <= Sum(Squares(Sums))
  {
    var d := Diffs(RgbaToStraightSpectral(c1), RgbaToStraightSpectral(c2));
    BandDifferenceBound(c1, c2);
    SquaresMonotone(d, Sums);
  }

  /** A Euclidean norm over a larger positive norm is a ratio in [0,1]. */
  lemma NormRatioInUnit(f: RealFns, d: seq<real>, t: seq<real>)
    requires Lawful(f)
    requires Sum(Squares(d)) <= Sum(Squares(t))
    requires 0.0 < f.sqrt(Sum(Squares(t)))
    ensures Divide(f.sqrt(Sum(Squares(d))), f.sqrt(Sum(Squares(t)))).Some?
    ensures 0.0 <= Divide(f.sqrt(Sum(Squares(d))), f.sqrt(Sum(Squares(t)))).value <= 1.0
  {
    SumSquaresNonNegative(d);
    SqrtNonNegative(f, Sum(Squares(d)));
    SqrtMonotone(f, Sum(Squares(d)), Sum(Squares(t)));
  }

  /** For in-gamut colours and lawful `sqrt`, `spectral_euclidean` is defined and in [0,1]. */
  lemma SpectralEuclideanInUnit(f: RealFns, c1: Rgba, c2: Rgba)
    requires Lawful(f)
    requires InGamut(c1) && InGamut(c2)
    ensures SpectralEuclidean(f, c1, c2).Some?
    ensures 0.0 <= SpectralEuclidean(f, c1, c2).value <= 1.0
  {
    assert 0.0 < WeightsDistanceMax(f);
    SquaredDifferenceBound(c1, c2);
    NormRatioInUnit(f, Diffs(RgbaToStraightSpectral(c1), RgbaToStraightSpectral(c2)), Sums);
  }

  /**
   * `WEIGHTS_DISTANCE_MAX` is never reached: every band difference of two
   * in-gamut colours stays strictly below its band total, so
   * `spectral_euclidean` stays strictly below 1.
   */
  lemma SpectralEuclideanBelowOne(f: RealFns, c1: Rgba, c2: Rgba)
    requires Lawful(f)
    requires InGamut(c1) && InGamut(c2)
    ensures SpectralEuclidean(f, c1, c2).Some?
    ensures SpectralEuclidean(f, c1, c2).value < 1.0
  {
    var s1, s2 := RgbaToStraightSpectral(c1), RgbaToStraightSpectral(c2);
    BandBounds(c1.r, c1.g, c1.b);
    BandBounds(c2.r, c2.g, c2.b);
    PrimariesNonNegative();
    FlooredDiffsBelow(s1, s2, Sums);
    NormRatioBelowOne(f, Diffs(s1, s2), Sums);
  }

  /** Two lists within `[EPSILON*t[i], t[i]]` band by band differ by strictly less than `t[i]`. */
  lemma FlooredDiffsBelow(s1: seq<real>, s2: seq<real>, t: seq<real>)
    requires |s1| == |t| && |s2| == |t|
    requires forall i :: 0 <= i < |t| ==> 0.0 < t[i] && EPSILON * t[i] <= s1[i] <= t[i] && EPSILON * t[i] <= s2[i] <= t[i]
    ensures forall i :: 0 <= i < |t| ==> Diffs(s1, s2)[i] < t[i]
  {
  }

  /** A Euclidean norm pointwise strictly below a non-empty positive one is a ratio below 1. */
  lemma NormRatioBelowOne(f: RealFns, d: seq<real>, t: seq<real>)
    requires Lawful(f)
    requires |d| == |t| && |d| > 0
    requires forall i :: 0 <= i < |d| ==> 0.0 <= d[i] < t[i]
    ensures Divide(f.sqrt(Sum(Squares(d))), f.sqrt(Sum(Squares(t)))).Some?
    ensures Divide(f.sqrt(Sum(Squares(d))), f.sqrt(Sum(Squares(t)))).value < 1.0
  {
    var sd, st := Squares(d), Squares(t);
    forall i | 0 <= i < |d|
      ensures sd[i] < st[i]
    {
      SquareIncreasing(d[i], t[i]);
    }
    SumStrictlyBelow(sd, st);
    SumSquaresNonNegative(d);
    SqrtNonNegative(f, Sum(sd));
    SqrtIncreasing(f, Sum(sd), Sum(st));
    QuotientBelowOne(f.sqrt(Sum(sd)), f.sqrt(Sum(st)));
  }

  // ---------------------------------------------------------------------
  // Log-domain bounds

  /**
   * The arithmetic behind the log normalisers: for a band total above 1/4,
   * the floored white band over the floored black band is strictly below the
   * band total over `EPSILON`.
   */
  lemma FloorRatioBound(t: real)
    requires 0.25 < t
    ensures 0.0 < EpsilonFloor(EPSILON * t)
    ensures EpsilonFloor(t) * EPSILON < t * EpsilonFloor(EPSILON * t)
  {
    var lo, hi := EpsilonFloor(EPSILON * t), EpsilonFloor(t);
    assert t * lo - hi * EPSILON == EPSILON * (1.0 - EPSILON) * (t * t) + EPSILON * EPSILON * (t - 1.0);
    assert t * t >= 0.25 * t by {
      ScaleBetween(0.25, 0.25, t, t);
    }
  }

  /**
   * Two bands within `[EPSILON*t, t]` are less than `log2(t) - log2(EPSILON)`
   * apart once clamped into the log domain: the widest gap, between the
   * floored black and white bands, stays strictly under the band's span.
   */
  lemma LogBandBound(f: RealFns, x: real, y: real, t: real)
    requires Lawful(f)
    requires 0.25 < t
    requires EPSILON * t <= x <= t && EPSILON * t <= y <= t
    ensures Diff(f.log2(EpsilonFloor(x)), f.log2(EpsilonFloor(y))) < f.log2(t) - f.log2(EPSILON)
  {
    FloorRatioBound(t);
    EpsilonFloorIncreasing(EPSILON * t, x);
    EpsilonFloorIncreasing(EPSILON * t, y);
    EpsilonFloorIncreasing(x, t);
    EpsilonFloorIncreasing(y, t);
    LogGapBound(f, EpsilonFloor(x), EpsilonFloor(y), EpsilonFloor(EPSILON * t), EpsilonFloor(t), t, EPSILON);
  }

  /**
   * Two values in `[lo, hi]` are at most `log2(hi) - log2(lo)` apart in the
   * log domain, which `hi*e < t*lo` keeps strictly below `log2(t) - log2(e)`.
   */
  lemma LogGapBound(f: RealFns, a: real, b: real, lo: real, hi: real, t: real, e: real)
    requires Lawful(f)
    requires 0.0 < lo <= a <= hi && lo <= b <= hi
    requires 0.0 < t && 0.0 < e
    requires hi * e < t * lo
    ensures Diff(f.log2(a), f.log2(b)) < f.log2(t) - f.log2(e)
  {
    Log2Monotone(f, lo, a);
    Log2Monotone(f, lo, b);
    Log2Monotone(f, a, hi);
    Log2Monotone(f, b, hi);
    LogRatioBound(f, lo, hi, t, e);
  }

  /** `hi*e < t*lo` gives `log2(hi) - log2(lo) < log2(t) - log2(e)`. */
  lemma LogRatioBound(f: RealFns, lo: real, hi: real, t: real, e: real)
    requires Lawful(f)
    requires 0.0 < lo && 0.0 < hi && 0.0 < t && 0.0 < e
    requires hi * e < t * lo
    ensures f.log2(hi) - f.log2(lo) < f.log2(t) - f.log2(e)
  {
    ProductSign(hi, e);
    Log2Increasing(f, Mul(hi, e), Mul(t, lo));
    assert f.log2(Mul(hi, e)) == f.log2(hi) + f.log2(e);
    assert f.log2(Mul(t, lo)) == f.log2(t) + f.log2(lo);
  }

  /**
   * For in-gamut colours both spectra loggify, and each band of the log
   * difference is strictly below that band's log span.
   */
  lemma LogDiffsWithinSpans(f: RealFns, c1: Rgba, c2: Rgba)
    requires Lawful(f)
    requires InGamut(c1) && InGamut(c2)
    ensures Loggify(f, RgbaToStraightSpectral(c1)).Some? && Loggify(f, RgbaToStraightSpectral(c2)).Some?
    ensures var d := Diffs(Loggify(f, RgbaToStraightSpectral(c1)).value, Loggify(f, RgbaToStraightSpectral(c2)).value);
      |d| == NUM_WAVES && forall i :: 0 <= i < NUM_WAVES ==> 0.0 <= d[i] < LogSpans(f)[i]
  {
    var s1, s2 := RgbaToStraightSpectral(c1), RgbaToStraightSpectral(c2);
    BandBounds(c1.r, c1.g, c1.b);
    BandBounds(c2.r, c2.g, c2.b);
    PrimariesNonNegative();
    LoggifyDefined(f, s1);
    LoggifyDefined(f, s2);
    var l1, l2 := Loggify(f, s1).value, Loggify(f, s2).value;
    var d := Diffs(l1, l2);
    forall i | 0 <= i < NUM_WAVES
      ensures d[i] < LogSpans(f)[i]
    {
      assert LogClamped(f, s1[i]) == Some(l1[i]);
      assert LogClamped(f, s2[i]) == Some(l2[i]);
      LogBandBound(f, s1[i], s2[i], Sums[i]);
    }
  }

  /**
   * For in-gamut colours and lawful `sqrt`/`log2`, `spectral_accum_diff_log`
   * is defined and lies in [0,1]: `LOG_WEIGHTS_MAX` is an upper bound.
   */
  lemma AccumDiffLogInUnit(f: RealFns, c1: Rgba, c2: Rgba)
    requires Lawful(f)
    requires InGamut(c1) && InGamut(c2)
    ensures SpectralAccumDiffLog(f, c1, c2).Some?
    ensures 0.0 <= SpectralAccumDiffLog(f, c1, c2).value <= 1.0
  {
    assert 0.0 < LogWeightsMax(f);
    LogDiffsWithinSpans(f, c1, c2);
    var l1 := Loggify(f, RgbaToStraightSpectral(c1)).value;
    var l2 := Loggify(f, RgbaToStraightSpectral(c2)).value;
    SumRatioInUnit(Diffs(l1, l2), LogSpans(f));
  }

  /**
   * `LOG_WEIGHTS_MAX` is never reached either: every band of the log
   * difference stays strictly under its span, so `spectral_accum_diff_log`
   * stays strictly below 1 on in-gamut colours.
   */
  lemma AccumDiffLogBelowOne(f: RealFns, c1: Rgba, c2: Rgba)
    requires Lawful(f)
    requires InGamut(c1) && InGamut(c2)
    ensures SpectralAccumDiffLog(f, c1, c2).Some?
    ensures SpectralAccumDiffLog(f, c1, c2).value < 1.0
  {
    var s1, s2 := RgbaToStraightSpectral(c1), RgbaToStraightSpectral(c2);
    assert Loggify(f, s1).Some? && Loggify(f, s2).Some? by {
      LogDiffsWithinSpans(f, c1, c2);
    }
    var d, t := Diffs(Loggify(f, s1).value, Loggify(f, s2).value), LogSpans(f);
    assert |d| == |t| > 0 && forall i :: 0 <= i < |d| ==> d[i] < t[i] by {
      LogDiffsWithinSpans(f, c1, c2);
    }
    assert 0.0 < Sum(t) by {
      assert 0.0 < LogWeightsMax(f);
    }
    SumRatioBelowOne(d, t);
    assert SpectralAccumDiffLog(f, c1, c2) == Divide(Sum(d), Sum(t));
  }

  /** A non-empty sum pointwise strictly below a positive sum is a ratio below 1. */
  lemma SumRatioBelowOne(d: seq<real>, t: seq<real>)
    requires |d| == |t| && |d| > 0
    requires forall i :: 0 <= i < |d| ==> d[i] < t[i]
    requires 0.0 < Sum(t)
    ensures Divide(Sum(d), Sum(t)).Some?
    ensures Divide(Sum(d), Sum(t)).value < 1.0
  {
    SumStrictlyBelow(d, t);
    QuotientBelowOne(Sum(d), Sum(t));
  }

  /** A sum over a larger positive sum, pointwise, is a ratio in [0,1]. */
  lemma SumRatioInUnit(d: seq<real>, t: seq<real>)
    requires |d| == |t|
    requires forall i :: 0 <= i < |d| ==> 0.0 <= d[i] <= t[i]
    requires 0.0 < Sum(t)
    ensures Divide(Sum(d), Sum(t)).Some?
    ensures 0.0 <= Divide(Sum(d), Sum(t)).value <= 1.0
  {
    SumNonNegative(d);
    SumMonotone(d, t);
  }

  /**
   * For in-gamut colours and lawful `sqrt`/`log2`, `spectral_euclidean_log`
   * is defined and lies in [0,1]: `LOG_WEIGHTS_DISTANCE_MAX` is an upper bound.
   */
  lemma EuclideanLogInUnit(f: RealFns, c1: Rgba, c2: Rgba)
    requires Lawful(f)
    requires InGamut(c1) && InGamut(c2)
    ensures SpectralEuclideanLog(f, c1, c2).Some?
    ensures 0.0 <= SpectralEuclideanLog(f, c1, c2).value <= 1.0
  {
    assert 0.0 < LogWeightsDistanceMax(f);
    LogDiffsWithinSpans(f, c1, c2);
    var l1 := Loggify(f, RgbaToStraightSpectral(c1)).value;
    var l2 := Loggify(f, RgbaToStraightSpectral(c2)).value;
    SquaresMonotone(Diffs(l1, l2), LogSpans(f));
    NormRatioInUnit(f, Diffs(l1, l2), LogSpans(f));
    assert SpectralEuclideanLog(f, c1, c2) == Divide(Euclidean(f, l1, l2), LogWeightsDistanceMax(f));
  }

  /**
   * `LOG_WEIGHTS_DISTANCE_MAX` is never reached either: every band of the log
   * difference stays strictly under its span, so `spectral_euclidean_log`
   * stays strictly below 1 on in-gamut colours.
   */
  lemma EuclideanLogBelowOne(f: RealFns, c1: Rgba, c2: Rgba)
    requires Lawful(f)
    requires InGamut(c1) && InGamut(c2)
    ensures SpectralEuclideanLog(f, c1, c2).Some?
    ensures SpectralEuclideanLog(f, c1, c2).value < 1.0
  {
    LogDiffsWithinSpans(f, c1, c2);
    var l1 := Loggify(f, RgbaToStraightSpectral(c1)).value;
    var l2 := Loggify(f, RgbaToStraightSpectral(c2)).value;
    NormRatioBelowOne(f, Diffs(l1, l2), LogSpans(f));
    assert SpectralEuclideanLog(f, c1, c2) == Divide(Euclidean(f, l1, l2), LogWeightsDistanceMax(f));
  }

  // ---------------------------------------------------------------------
  // The catalogue

  /** The six catalogued metrics, in catalogue order. */
  datatype Metric =
    | AccumDiff
    | AccumDiffLog
    | EuclideanDistance
    | EuclideanLog
    | MaxDiffAbsolute
    | MaxDiffScaledBand

  /**
   * Runs one catalogued metric on two colours; `None` where the source raises.
   * The three metrics that call neither `sqrt` nor `log2` never raise and
   * are non-negative, and so is the Euclidean one under a lawful `sqrt`; the
   * linear and scaled-maximum ones stay within [0,1] on in-gamut colours;
   * the three without `sqrt` or `log2` give exactly 0 on colours that differ
   * at most in alpha.
   */
  function Distance(f: RealFns, m: Metric, c1: Rgba, c2: Rgba): (r: Option<real>)
    ensures (m == AccumDiff || m == MaxDiffAbsolute || m == MaxDiffScaledBand) ==> r.Some? && 0.0 <= r.value
    ensures Lawful(f) && m == EuclideanDistance ==> r.Some? && 0.0 <= r.value
    ensures (m == AccumDiff || m == MaxDiffScaledBand) && InGamut(c1) && InGamut(c2) ==> r.Some? && r.value <= 1.0
    ensures (m == AccumDiff || m == MaxDiffAbsolute || m == MaxDiffScaledBand) && SameRgb(c1, c2) ==> r == Some(0.0)
  {
    match m
    case AccumDiff => Some(SpectralAccumDiff(c1, c2))
    case AccumDiffLog => SpectralAccumDiffLog(f, c1, c2)
    case EuclideanDistance => SpectralEuclidean(f, c1, c2)
    case EuclideanLog => SpectralEuclideanLog(f, c1, c2)
    case MaxDiffAbsolute => Some(SpectralMaxDiffAbs(c1, c2))
    case MaxDiffScaledBand => Some(SpectralMaxDiffScaled(c1, c2))
  }

  /** `distance_functions`: the metrics paired with their labels, in display order. */
  const DISTANCE_FUNCTIONS: seq<(Metric, string)> := [
    (AccumDiff, "Lin. Accum. difference (Spectral)"),
    (AccumDiffLog, "Lin. Accum. difference of log's (Spectral)"),
    (EuclideanDistance, "Euclidean distance (Spectral)"),
    (EuclideanLog, "Euclidean distance of log's (Spectral)"),
    (MaxDiffAbsolute, "Maximum absolute channel diff (Spectral)"),
    (MaxDiffScaledBand, "Maximum scaled channel diff (Spectral)")
  ]

  /** Where a metric sits in the catalogue. */
  function CataloguePosition(m: Metric): nat
  {
    match m
    case AccumDiff => 0
    case AccumDiffLog => 1
    case EuclideanDistance => 2
    case EuclideanLog => 3
    case MaxDiffAbsolute => 4
    case MaxDiffScaledBand => 5
  }

  /**
   * The catalogue lists six entries, starting with the linear accumulated
   * difference (the default selection), and names every metric exactly once
   * under a label of its own.
   */
  lemma CatalogueShape()
    ensures |DISTANCE_FUNCTIONS| == 6
    ensures DISTANCE_FUNCTIONS[0].0 == AccumDiff
    ensures forall m: Metric :: CataloguePosition(m) < |DISTANCE_FUNCTIONS| && DISTANCE_FUNCTIONS[CataloguePosition(m)].0 == m
    ensures forall i, j :: 0 <= i < j < |DISTANCE_FUNCTIONS| ==> DISTANCE_FUNCTIONS[i].0 != DISTANCE_FUNCTIONS[j].0
    ensures forall i, j :: 0 <= i < j < |DISTANCE_FUNCTIONS| ==> DISTANCE_FUNCTIONS[i].1 != DISTANCE_FUNCTIONS[j].1
  {
  }

  // ---------------------------------------------------------------------
  // Properties of the catalogued metrics

  /** Every catalogued metric is symmetric in its two colours. */
  lemma DistanceSymmetric(f: RealFns, m: Metric, c1: Rgba, c2: Rgba)
    ensures Distance(f, m, c1, c2) == Distance(f, m, c2, c1)
  {
    var s1, s2 := RgbaToStraightSpectral(c1), RgbaToStraightSpectral(c2);
    match m
    case AccumDiffLog | EuclideanLog =>
      var o1, o2 := Loggify(f, s1), Loggify(f, s2);
      if o1.Some? && o2.Some? {
        AccumulatorsSymmetric(f, o1.value, o2.value);
      }
    case _ =>
      AccumulatorsSymmetric(f, s1, s2);
  }

  /** Only the colour channels reach a metric: alpha is ignored. */
  lemma DistanceIgnoresAlpha(f: RealFns, m: Metric, c1: Rgba, c2: Rgba, d1: Rgba, d2: Rgba)
    requires c1.r == d1.r && c1.g == d1.g && c1.b == d1.b
    requires c2.r == d2.r && c2.g == d2.g && c2.b == d2.b
    ensures Distance(f, m, c1, c2) == Distance(f, m, d1, d2)
  {
  }

  /**
   * Identity: with lawful `sqrt` and `log2`, every catalogued metric gives
   * exactly 0 for two in-gamut colours that differ at most in alpha.
   */
  lemma DistanceZeroOnSameColour(f: RealFns, m: Metric, c1: Rgba, c2: Rgba)
    requires Lawful(f)
    requires InGamut(c1)
    requires c1.r == c2.r && c1.g == c2.g && c1.b == c2.b
    ensures Distance(f, m, c1, c2) == Some(0.0)
  {
    match m
    case AccumDiffLog | EuclideanLog =>
      LogDistancesVanish(f, c1, c2);
    case EuclideanDistance =>
      EuclideanVanishes(f, c1, c2);
    case _ =>
  }

  /** The two log metrics are 0 on an in-gamut colour and one with the same colour channels. */
  lemma LogDistancesVanish(f: RealFns, c1: Rgba, c2: Rgba)
    requires Lawful(f)
    requires InGamut(c1) && SameRgb(c1, c2)
    ensures SpectralAccumDiffLog(f, c1, c2) == Some(0.0)
    ensures SpectralEuclideanLog(f, c1, c2) == Some(0.0)
  {
    var s := RgbaToStraightSpectral(c1);
    assert RgbaToStraightSpectral(c2) == s;
    BandBounds(c1.r, c1.g, c1.b);
    LoggifyDefined(f, s);
    var l := Loggify(f, s).value;
    AccumulatorsVanish(f, l);
    assert 0.0 < LogWeightsMax(f) && 0.0 < LogWeightsDistanceMax(f);
    assert SpectralAccumDiffLog(f, c1, c2) == Divide(AccumDiffLinear(l, l), LogWeightsMax(f));
    assert SpectralEuclideanLog(f, c1, c2) == Divide(Euclidean(f, l, l), LogWeightsDistanceMax(f));
  }

  /** The Euclidean metric is 0 on two colours with the same colour channels. */
  lemma EuclideanVanishes(f: RealFns, c1: Rgba, c2: Rgba)
    requires Lawful(f)
    requires SameRgb(c1, c2)
    ensures SpectralEuclidean(f, c1, c2) == Some(0.0)
  {
    var s := RgbaToStraightSpectral(c1);
    assert RgbaToStraightSpectral(c2) == s;
    AccumulatorsVanish(f, s);
    assert 0.0 < WeightsDistanceMax(f);
  }

  /**
   * With lawful `sqrt` and `log2`, no catalogued metric raises on in-gamut
   * colours, and every one of them is non-negative.
   */
  lemma DistanceDefined(f: RealFns, m: Metric, c1: Rgba, c2: Rgba)
    requires Lawful(f)
    requires InGamut(c1) && InGamut(c2)
    ensures Distance(f, m, c1, c2).Some?
    ensures 0.0 <= Distance(f, m, c1, c2).value
  {
    WeightsMaxPositive();
    var s1, s2 := RgbaToStraightSpectral(c1), RgbaToStraightSpectral(c2);
    match m
    case AccumDiffLog | EuclideanLog =>
      BandBounds(c1.r, c1.g, c1.b);
      BandBounds(c2.r, c2.g, c2.b);
      LoggifyDefined(f, s1);
      LoggifyDefined(f, s2);
    case _ =>
  }

  /**
   * Every catalogued metric but the unnormalised absolute maximum lies in
   * [0,1] for in-gamut colours: the four normalised ones because their
   * constants are upper bounds, the scaled maximum because each band is scaled
   * by its own total.
   */
  lemma BoundedMetricsInUnit(f: RealFns, m: Metric, c1: Rgba, c2: Rgba)
    requires Lawful(f)
    requires m != MaxDiffAbsolute
    requires InGamut(c1) && InGamut(c2)
    ensures Distance(f, m, c1, c2).Some?
    ensures 0.0 <= Distance(f, m, c1, c2).value <= 1.0
  {
    match m
    case AccumDiff =>
    case AccumDiffLog => AccumDiffLogInUnit(f, c1, c2);
    case EuclideanDistance => SpectralEuclideanInUnit(f, c1, c2);
    case EuclideanLog => EuclideanLogInUnit(f, c1, c2);
    case MaxDiffScaledBand =>
  }

  /** The absolute maximum is bounded by the largest band total instead: a colour against black can exceed 1. */
  lemma MaxDiffAbsUnbounded()
    ensures SpectralMaxDiffAbs(Rgba(1.0, 0.0, 0.0, 1.0), Rgba(0.0, 0.0, 0.0, 1.0)) > 1.0
  {
    var s1 := RgbaToStraightSpectral(Rgba(1.0, 0.0, 0.0, 1.0));
    var s2 := RgbaToStraightSpectral(Rgba(0.0, 0.0, 0.0, 1.0));
    assert Diff(s1[6], s2[6]) > 1.0;
  }
}

=== FILE: prelude.dfy ===
/**
 * The small part of Python's run time that the colour-distance core leans on:
 * an optional value for "no result" (Python's `None`, and a caught exception),
 * the built-ins `sum` and `max` over lists of floats, and the two
 * transcendental functions `math.sqrt` and `log2`.
 *
 * Floats are modelled as exact `real`s.  `sqrt` and `log2` are not defined
 * here: they are carried around as a record of function values, and every
 * fact that needs them asks for the few laws real square roots and binary
 * logarithms obey (`Lawful`).
 */
module Prelude {

  /** A value that may be absent: Python's `None`. */
  datatype Option<+T> = None | Some(value: T)

  /** Python's `sum(s)`: left-to-right accumulation starting from zero. */
  function Sum(s: seq<real>): real
  {
    if |s| == 0 then 0.0 else Sum(s[..|s| - 1]) + s[|s| - 1]
  }

  /**
   * Python's `max(s)` over a non-empty list: a left-to-right scan that keeps
   * the running maximum.  The result is an upper bound of the list and one of
   * its elements.
   */
  function Max(s: seq<real>): (m: real)
    requires |s| > 0
    ensures forall i :: 0 <= i < |s| ==> s[i] <= m
    ensures exists i :: 0 <= i < |s| && s[i] == m
  {
    if |s| == 1 then s[0]
    else
      var prefix := Max(s[..|s| - 1]);
      assert forall i :: 0 <= i < |s| - 1 ==> s[..|s| - 1][i] == s[i];
      if s[|s| - 1] > prefix then s[|s| - 1] else prefix
  }

  /** `x**2`. */
  function Sq(x: real): real
  {
    x * x
  }

  /** Element-wise squares of a list. */
  function Squares(s: seq<real>): (r: seq<real>)
    ensures |r| == |s|
    ensures forall i :: 0 <= i < |s| ==> r[i] == Sq(s[i])
  {
    seq(|s|, i requires 0 <= i < |s| => Sq(s[i]))
  }

  // ---------------------------------------------------------------------
  // Real arithmetic the solver needs spelled out

  /** A value in [0,1]: a colour channel, an alpha, a normalised distance. */
  predicate InUnit(v: real)
  {
    0.0 <= v <= 1.0
  }

  /** A product of non-negative reals is non-negative; of positive reals, positive. */
  lemma ProductSign(x: real, y: real)
    requires 0.0 <= x && 0.0 <= y
    ensures 0.0 <= x * y
    ensures 0.0 < x && 0.0 < y ==> 0.0 < x * y
  {
  }

  /** `lo <= x <= hi` scaled by a non-negative weight. */
  lemma ScaleBetween(x: real, lo: real, hi: real, w: real)
    requires lo <= x <= hi
    requires 0.0 <= w
    ensures lo * w <= x * w <= hi * w
  {
    ProductSign(x - lo, w);
    ProductSign(hi - x, w);
  }

  /** A product of two reals in [0,1] is in [0,1]. */
  lemma ProductInUnit(x: real, y: real)
    ensures InUnit(x) && InUnit(y) ==> InUnit(x * y)
  {
    if InUnit(x) && InUnit(y) {
      ScaleBetween(x, 0.0, 1.0, y);
      assert x * y <= 1.0 * y == y;
    }
  }

  /** What dividing by a positive divisor preserves: sign, the unit bound, and zero. */
  lemma QuotientFacts(x: real, d: real)
    ensures 0.0 < d && 0.0 <= x ==> 0.0 <= x / d
    ensures 0.0 < d && 0.0 <= x <= d ==> x / d <= 1.0
    ensures d != 0.0 && x == 0.0 ==> x / d == 0.0
  {
  }

  /** `x <= k*w` over a positive `w` gives a quotient of at most `k`. */
  lemma QuotientAtMost(x: real, w: real, k: real)
    requires 0.0 < w
    requires x <= Mul(k, w)
    ensures x / w <= k
  {
    assert x / w - k == (x - k * w) / w;
  }

  /** A value over a larger positive one is a quotient below 1, and in `[0, 1)` when non-negative. */
  lemma QuotientBelowOne(x: real, w: real)
    requires 0.0 < w && x < w
    ensures x / w < 1.0
    ensures 0.0 <= x ==> 0.0 <= x / w
  {
    QuotientAtMost(x, w, 1.0);
    assert x / w != 1.0;
  }

  /** Squaring is strictly increasing on the non-negative reals. */
  lemma SquareIncreasing(a: real, b: real)
    requires 0.0 <= a < b
    ensures Sq(a) < Sq(b)
  {
    var d, s := b - a, b + a;
    assert 0.0 < d && 0.0 < s;
    ProductSign(d, s);
    assert 0.0 < d * s;
    assert d * s == Sq(b) - Sq(a);
  }

  /** `k*w` over a non-zero `w` is `k`. */
  lemma QuotientOfMultiple(x: real, w: real, k: real)
    requires w != 0.0
    requires x == Mul(k, w)
    ensures x / w == k
  {
  }

  /** The two transcendental functions of Python's `math` module in use. */
  datatype RealFns = RealFns(sqrt: real -> real, log2: real -> real)

  /**
   * The laws assumed of `sqrt` and `log2`: the square root is monotone on the
   * non-negative reals, undoes squaring there and is undone by squaring, and
   * the binary logarithm is strictly increasing on the positive reals (its
   * domain; arguments outside it are never passed, see
   * `DistanceModels.LogClamped`) and turns products into sums.
   *
   * The two order laws, the squaring of a root and the product law are stated
   * over named terms (`SqrtOrdered`, `LogOrdered`, `Root`, `Mul`), so that each
   * is only brought to bear where a proof asks for it rather than on every
   * pair of `sqrt` or `log2` terms in sight.
   */
  ghost predicate Lawful(f: RealFns)
  {
    && (forall x, y :: 0.0 <= x <= y ==> SqrtOrdered(f, x, y))
    && (forall x :: 0.0 <= x ==> f.sqrt(Sq(x)) == x)
    && (forall x :: 0.0 <= x ==> Sq(Root(f, x)) == x)
    && (forall x, y :: 0.0 < x < y ==> LogOrdered(f, x, y))
    && (forall x, y :: 0.0 < x && 0.0 < y ==> f.log2(Mul(x, y)) == f.log2(x) + f.log2(y))
  }

  /** `sqrt(x) <= sqrt(y)`. */
  predicate SqrtOrdered(f: RealFns, x: real, y: real)
  {
    f.sqrt(x) <= f.sqrt(y)
  }

  /** `log2(x) < log2(y)`. */
  predicate LogOrdered(f: RealFns, x: real, y: real)
  {
    f.log2(x) < f.log2(y)
  }

  /** `sqrt(x)` under a name, for the law that squaring undoes it. */
  function Root(f: RealFns, x: real): real
  {
    f.sqrt(x)
  }

  /**
   * Multiplication under a name: for the product law of `log2`, and for
   * products with a named constant factor, which the solver otherwise treats
   * as non-linear wherever they appear.
   */
  function Mul(x: real, y: real): real
  {
    x * y
  }

  /** `log2` is strictly increasing on the positive reals. */
  lemma Log2Increasing(f: RealFns, x: real, y: real)
    requires Lawful(f)
    requires 0.0 < x < y
    ensures f.log2(x) < f.log2(y)
  {
    assert LogOrdered(f, x, y);
  }

  /** `log2` is non-decreasing on the positive reals. */
  lemma Log2Monotone(f: RealFns, x: real, y: real)
    requires Lawful(f)
    requires 0.0 < x <= y
    ensures f.log2(x) <= f.log2(y)
  {
    if x < y {
      Log2Increasing(f, x, y);
    }
  }

  /** `sqrt` is non-decreasing on the non-negative reals. */
  lemma SqrtMonotone(f: RealFns, x: real, y: real)
    requires Lawful(f)
    requires 0.0 <= x <= y
    ensures f.sqrt(x) <= f.sqrt(y)
  {
    assert SqrtOrdered(f, x, y);
  }

  /**
   * `sqrt` is strictly increasing on the non-negative reals: equal roots
   * would square back to equal arguments.
   */
  lemma SqrtIncreasing(f: RealFns, x: real, y: real)
    requires Lawful(f)
    requires 0.0 <= x < y
    ensures f.sqrt(x) < f.sqrt(y)
  {
    SqrtMonotone(f, x, y);
    assert Sq(Root(f, x)) == x && Sq(Root(f, y)) == y;
  }

  lemma SqrtNonNegative(f: RealFns, x: real)
    requires Lawful(f)
    requires 0.0 <= x
    ensures 0.0 <= f.sqrt(x)
  {
    assert f.sqrt(Sq(0.0)) == 0.0;
    SqrtMonotone(f, 0.0, x);
  }

  lemma {:induction false} SumNonNegative(s: seq<real>)
    requires forall i :: 0 <= i < |s| ==> 0.0 <= s[i]
    ensures 0.0 <= Sum(s)
  {
    if |s| > 0 {
      SumNonNegative(s[..|s| - 1]);
    }
  }

  /** A sum of squares is non-negative. */
  lemma SumSquaresNonNegative(s: seq<real>)
    ensures 0.0 <= Sum(Squares(s))
  {
    var sq := Squares(s);
    forall i | 0 <= i < |sq|
      ensures 0.0 <= sq[i]
    {
      assert sq[i] == s[i] * s[i];
    }
    SumNonNegative(sq);
  }

  /** `sum` is monotone: a pointwise smaller list of the same length sums to less. */
  lemma {:induction false} SumMonotone(s: seq<real>, t: seq<real>)
    requires |s| == |t|
    requires forall i :: 0 <= i < |s| ==> s[i] <= t[i]
    ensures Sum(s) <= Sum(t)
  {
    if |s| > 0 {
      SumMonotone(s[..|s| - 1], t[..|t| - 1]);
    }
  }

  /** The sum of a list of zeros is zero. */
  lemma {:induction false} SumZero(s: seq<real>)
    requires forall i :: 0 <= i < |s| ==> s[i] == 0.0
    ensures Sum(s) == 0.0
  {
    if |s| > 0 {
      SumZero(s[..|s| - 1]);
    }
  }

  /** A non-empty list pointwise strictly below another sums to strictly less. */
  lemma {:induction false} SumStrictlyBelow(s: seq<real>, t: seq<real>)
    requires |s| == |t| && |s| > 0
    requires forall i :: 0 <= i < |s| ==> s[i] < t[i]
    ensures Sum(s) < Sum(t)
  {
    var n := |s| - 1;
    if n == 0 {
      assert Sum(s[..0]) == 0.0 == Sum(t[..0]);
    } else {
      SumStrictlyBelow(s[..n], t[..n]);
    }
  }

  /** Every term of a list of non-negative reals is at most its sum. */
  lemma {:induction false} SumBoundsTerm(s: seq<real>, k: int)
    requires forall i :: 0 <= i < |s| ==> 0.0 <= s[i]
    requires 0 <= k < |s|
    ensures s[k] <= Sum(s)
  {
    var p := s[..|s| - 1];
    if k == |s| - 1 {
      SumNonNegative(p);
    } else {
      SumBoundsTerm(p, k);
    }
  }

  /** A list of positive reals sums to something positive and at least each of its terms. */
  lemma SumDominates(s: seq<real>)
    ensures (forall i :: 0 <= i < |s| ==> 0.0 < s[i]) ==> (|s| > 0 ==> 0.0 < Sum(s))
    ensures (forall i :: 0 <= i < |s| ==> 0.0 < s[i]) ==> forall k :: 0 <= k < |s| ==> s[k] <= Sum(s)
  {
    if forall i :: 0 <= i < |s| ==> 0.0 < s[i] {
      forall k | 0 <= k < |s|
        ensures s[k] <= Sum(s)
      {
        SumBoundsTerm(s, k);
      }
    }
  }

  /** A list of positive reals has a positive sum. */
  lemma SumPositive(s: seq<real>)
    requires |s| > 0
    requires forall i :: 0 <= i < |s| ==> 0.0 < s[i]
    ensures 0.0 < Sum(s)
  {
    SumBoundsTerm(s, 0);
  }

  /** Scaling every term of a list scales its sum by the same factor. */
  lemma {:induction false} SumScale(s: seq<real>, t: seq<real>, k: real)
    requires |s| == |t|
    requires forall i :: 0 <= i < |s| ==> s[i] == k * t[i]
    ensures Sum(s) == Mul(k, Sum(t))
  {
    if |s| > 0 {
      var n := |s| - 1;
      SumScale(s[..n], t[..n], k);
      assert Sum(s) == k * Sum(t[..n]) + k * t[n];
    }
  }

  /**
   * The Euclidean norm `sqrt(sum(x**2 for x in d))` is non-negative and at
   * least every non-negative entry of `d`.
   */
  lemma NormBounds(f: RealFns, d: seq<real>)
    ensures Lawful(f) ==> 0.0 <= f.sqrt(Sum(Squares(d)))
    ensures Lawful(f) ==> forall i :: 0 <= i < |d| && 0.0 <= d[i] ==> d[i] <= f.sqrt(Sum(Squares(d)))
  {
    if Lawful(f) {
      var sq := Squares(d);
      SumSquaresNonNegative(d);
      SqrtNonNegative(f, Sum(sq));
      forall j | 0 <= j < |sq|
        ensures 0.0 <= sq[j]
      {
        assert sq[j] == d[j] * d[j];
      }
      forall i | 0 <= i < |d| && 0.0 <= d[i]
        ensures d[i] <= f.sqrt(Sum(sq))
      {
        SumBoundsTerm(sq, i);
        SqrtMonotone(f, Sq(d[i]), Sum(sq));
        assert f.sqrt(Sq(d[i])) == d[i];
      }
    }
  }

  /** A list bounded pointwise by `k` times another sums to at most `k` times its sum. */
  lemma {:induction false} SumBelowScaled(d: seq<real>, t: seq<real>, k: real)
    requires |d| == |t|
    requires forall i :: 0 <= i < |d| ==> d[i] <= k * t[i]
    ensures Sum(d) <= Mul(k, Sum(t))
  {
    if |d| > 0 {
      var n := |d| - 1;
      SumBelowScaled(d[..n], t[..n], k);
      assert k * Sum(t) == k * Sum(t[..n]) + k * t[n];
    }
  }
}

=== FILE: spectral.dfy ===
/**
 * The RGB -> 7-band spectral upsampler (spectral.py).
 *
 * Each of the three channels is first lifted off zero by the epsilon floor
 * `v*(1-EPSILON)+EPSILON`, then spread over the seven wavelength bands by a
 * fixed non-negative "primary" table; the band value is the sum of the three
 * channel contributions.  For channels in [0,1] every band lies between
 * `EPSILON*Sums[i]` and `Sums[i]`, so every band is positive and safe to take
 * a logarithm of.
 */
module Spectral {
  import opened Prelude

  const EPSILON: real := 0.0001
  const NUM_WAVES: nat := 7

  /** Spectral primary of the red channel, one weight per band. */
  const R: seq<real> := [
    0.014976989831103, 0.015163469993149, 0.024828861915840,
    0.055372724024590, 0.311175941451513, 2.261540004074889,
    2.451861959778458
  ]

  /** Spectral primary of the green channel. */
  const G: seq<real> := [
    0.060871084436057, 0.063645032450431, 0.344088900200936,
    1.235198096662594, 0.145221682434442, 0.101106655125270,
    0.099848117829856
  ]

  /** Spectral primary of the blue channel. */
  const B: seq<real> := [
    0.777465337464873, 0.899749264722067, 0.258544195013949,
    0.015623896354842, 0.004846585772726, 0.003989003708280,
    0.003962407615164
  ]

  /** `sums`: the per-band total of the three primaries, i.e. the band values of pure white. */
  function BandTotals(): (s: seq<real>)
    ensures |s| == NUM_WAVES
    ensures forall i :: 0 <= i < NUM_WAVES ==> s[i] == B[i] + R[i] + G[i]
  {
    seq(NUM_WAVES, i requires 0 <= i < NUM_WAVES => B[i] + R[i] + G[i])
  }

  const Sums: seq<real> := BandTotals()

  /** Every primary weight is non-negative and every band total is well above `EPSILON`. */
  lemma PrimariesNonNegative()
    ensures |R| == NUM_WAVES && |G| == NUM_WAVES && |B| == NUM_WAVES && |Sums| == NUM_WAVES
    ensures forall i :: 0 <= i < NUM_WAVES ==> 0.0 <= R[i] && 0.0 <= G[i] && 0.0 <= B[i]
    ensures forall i :: 0 <= i < NUM_WAVES ==> Sums[i] == R[i] + G[i] + B[i]
    ensures forall i :: 0 <= i < NUM_WAVES ==> 0.25 < Sums[i]
  {
  }

  /** `diff(a, b)`: the absolute difference of two reals. */
  function Diff(a: real, b: real): (d: real)
    ensures 0.0 <= d
    ensures d == a - b || d == b - a
  {
    if a > b then a - b else b - a
  }

  /** `diff` is symmetric and vanishes exactly on equal arguments. */
  lemma DiffMetric(a: real, b: real)
    ensures Diff(a, b) == Diff(b, a)
    ensures Diff(a, b) == 0.0 <==> a == b
  {
  }

  /**
   * The epsilon floor `v*(1-EPSILON)+EPSILON` applied to a channel before
   * upsampling, and to a band before its logarithm is taken.  It maps [0,1]
   * onto [EPSILON,1], keeps every non-negative input at or above `EPSILON`,
   * and is strictly increasing.
   */
  function EpsilonFloor(v: real): (r: real)
    ensures 0.0 <= v ==> EPSILON <= r
    ensures v <= 1.0 ==> r <= 1.0
    ensures v == 0.0 ==> r == EPSILON
    ensures v == 1.0 ==> r == 1.0
  {
    v * (1.0 - EPSILON) + EPSILON
  }

  lemma EpsilonFloorIncreasing(v: real, w: real)
    ensures v < w <==> EpsilonFloor(v) < EpsilonFloor(w)
    ensures v <= w <==> EpsilonFloor(v) <= EpsilonFloor(w)
  {
  }

  /** `channel_spectrals`: one channel value spread over the bands by a weight table. */
  function ChannelSpectrals(v: real, weights: seq<real>): (s: seq<real>)
    requires |weights| >= NUM_WAVES
    ensures |s| == NUM_WAVES
    ensures forall i :: 0 <= i < NUM_WAVES ==> s[i] == v * weights[i]
  {
    seq(NUM_WAVES, i requires 0 <= i < NUM_WAVES => v * weights[i])
  }

  /**
   * Spreading a larger channel value over a non-negative weight table gives
   * larger bands, and a non-negative value gives non-negative bands.
   */
  lemma ChannelSpectralsMonotone(v: real, v': real, weights: seq<real>)
    requires |weights| >= NUM_WAVES
    requires forall i :: 0 <= i < NUM_WAVES ==> 0.0 <= weights[i]
    requires 0.0 <= v <= v'
    ensures forall i :: 0 <= i < NUM_WAVES ==>
      0.0 <= ChannelSpectrals(v, weights)[i] <= ChannelSpectrals(v', weights)[i]
  {
    forall i | 0 <= i < NUM_WAVES
      ensures 0.0 <= v * weights[i] <= v' * weights[i]
    {
      ScaleBetween(v, 0.0, v', weights[i]);
    }
  }

  /** `rgb_to_spectral`: floor the three channels, spread each, add per band. */
  function RgbToSpectral(r: real, g: real, b: real): (s: seq<real>)
    ensures |s| == NUM_WAVES
    ensures forall i :: 0 <= i < NUM_WAVES ==>
      s[i] == EpsilonFloor(r) * R[i] + EpsilonFloor(g) * G[i] + EpsilonFloor(b) * B[i]
  {
    var r', g', b' := EpsilonFloor(r), EpsilonFloor(g), EpsilonFloor(b);
    var specR, specG, specB := ChannelSpectrals(r', R), ChannelSpectrals(g', G), ChannelSpectrals(b', B);
    seq(NUM_WAVES, i requires 0 <= i < NUM_WAVES => specR[i] + specG[i] + specB[i])
  }

  /** For channels in [0,1], band `i` lies in `[EPSILON*Sums[i], Sums[i]]`, so it is positive. */
  lemma BandBounds(r: real, g: real, b: real)
    requires InUnit(r) && InUnit(g) && InUnit(b)
    ensures forall i :: 0 <= i < NUM_WAVES ==>
      EPSILON * Sums[i] <= RgbToSpectral(r, g, b)[i] <= Sums[i]
    ensures forall i :: 0 <= i < NUM_WAVES ==> 0.0 < RgbToSpectral(r, g, b)[i]
  {
    PrimariesNonNegative();
    var s := RgbToSpectral(r, g, b);
    forall i | 0 <= i < NUM_WAVES
      ensures EPSILON * Sums[i] <= s[i] <= Sums[i]
    {
      ScaleBetween(EpsilonFloor(r), EPSILON, 1.0, R[i]);
      ScaleBetween(EpsilonFloor(g), EPSILON, 1.0, G[i]);
      ScaleBetween(EpsilonFloor(b), EPSILON, 1.0, B[i]);
    }
  }

  /** Black upsamples to the floor `EPSILON*Sums[i]` in every band, never to zero. */
  lemma BlackSpectrum()
    ensures forall i :: 0 <= i < NUM_WAVES ==> RgbToSpectral(0.0, 0.0, 0.0)[i] == EPSILON * Sums[i]
  {
    PrimariesNonNegative();
  }

  /** White upsamples to exactly the band totals. */
  lemma WhiteSpectrum()
    ensures RgbToSpectral(1.0, 1.0, 1.0) == Sums
  {
    PrimariesNonNegative();
  }

  /** The upsampler is non-decreasing in each channel, band by band. */
  lemma SpectralMonotone(r: real, g: real, b: real, r': real, g': real, b': real)
    requires r <= r' && g <= g' && b <= b'
    ensures forall i :: 0 <= i < NUM_WAVES ==> RgbToSpectral(r, g, b)[i] <= RgbToSpectral(r', g', b')[i]
  {
    PrimariesNonNegative();
    forall i | 0 <= i < NUM_WAVES
      ensures RgbToSpectral(r, g, b)[i] <= RgbToSpectral(r', g', b')[i]
    {
      EpsilonFloorIncreasing(r, r');
      EpsilonFloorIncreasing(g, g');
      EpsilonFloorIncreasing(b, b');
      ScaleBetween(EpsilonFloor(r), EpsilonFloor(r), EpsilonFloor(r'), R[i]);
      ScaleBetween(EpsilonFloor(g), EpsilonFloor(g), EpsilonFloor(g'), G[i]);
      ScaleBetween(EpsilonFloor(b), EpsilonFloor(b), EpsilonFloor(b'), B[i]);
    }
  }

  /**
   * `rgb_to_spectral_log`: the base-2 logarithm of every band.  `log2` of a
   * non-positive band raises in the source; that outcome is `None`.
   */
  function RgbToSpectralLog(f: RealFns, r: real, g: real, b: real): (l: Option<seq<real>>)
    ensures l.Some? <==> forall i :: 0 <= i < NUM_WAVES ==> 0.0 < RgbToSpectral(r, g, b)[i]
    ensures l.Some? ==> |l.value| == NUM_WAVES
    ensures l.Some? ==> forall i :: 0 <= i < NUM_WAVES ==> l.value[i] == f.log2(RgbToSpectral(r, g, b)[i])
  {
    var s := RgbToSpectral(r, g, b);
    if forall i :: 0 <= i < NUM_WAVES ==> 0.0 < s[i]
    then Some(seq(NUM_WAVES, i requires 0 <= i < NUM_WAVES => f.log2(s[i])))
    else None
  }

  /** For channels in [0,1] the logarithmic spectrum is always defined. */
  lemma SpectralLogDefined(f: RealFns, r: real, g: real, b: real)
    requires InUnit(r) && InUnit(g) && InUnit(b)
    ensures RgbToSpectralLog(f, r, g, b).Some?
  {
    BandBounds(r, g, b);
  }
}

=== FILE: tolerance_model.dfy ===
/**
 * The tolerance/alpha orchestrator: class `Model` of distance_ui.py.
 *
 * A model holds two RGBA colours, a tolerance and an optional catalogued
 * metric, and caches four outputs: the RGB distance, the RGBA distance (a
 * heuristic blend of the RGB distance with the alpha difference) and the two
 * fill alphas derived from them by the tolerance curve.  The Python object is
 * mutated in place; here each mutator returns the new state.
 *
 * `None` stands for Python's `None`: no metric selected, or a metric that
 * raised (the source catches the exception, prints it and yields `None`).
 */
module ToleranceModel {
  import opened Prelude
  import opened Spectral
  import opened DistanceModels

  /** `self.cols`: always a list of exactly two colours. */
  type ColourPair = s: seq<Rgba> | |s| == 2
    witness [Rgba(0.0, 0.0, 0.0, 1.0), Rgba(0.0, 0.0, 0.0, 1.0)]

  datatype Model = Model(
    distanceFunc: Option<Metric>,
    cols: ColourPair,
    tolerance: real,
    rgbDistance: Option<real>,
    rgbaDistance: Option<real>,
    rgbAlpha: Option<real>,
    rgbaAlpha: Option<real>)

  // ---------------------------------------------------------------------
  // The tolerance curve

  /** Comparing `d / t` with 1 is comparing `d` with `t`. */
  lemma QuotientAtLeastOne(d: real, t: real)
    requires 0.0 < t
    ensures d / t >= 1.0 <==> d >= t
  {
    var q := d / t;
    assert q * t == d;
    if q >= 1.0 {
      ProductSign(q - 1.0, t);
      assert d - t == (q - 1.0) * t;
    } else {
      ProductSign(1.0 - q, t);
      assert t - d == (1.0 - q) * t;
    }
  }

  /** Comparing `d / t` with 1/2 is comparing `d` with `t/2`. */
  lemma QuotientAboveHalf(d: real, t: real)
    requires 0.0 < t
    ensures 1.0 - d / t < 0.5 <==> d > t / 2.0
  {
    var q := d / t;
    assert q * t == d;
    if q > 0.5 {
      ProductSign(q - 0.5, t);
      assert d - t / 2.0 == (q - 0.5) * t;
    } else {
      ProductSign(0.5 - q, t);
      assert t / 2.0 - d == (0.5 - q) * t;
    }
  }

  /**
   * `get_alpha`: the fill alpha for a distance under the current tolerance.
   * `None` in gives `None` out.  Tolerance at or above 1 lets everything
   * through; tolerance at or below 0 accepts exact matches only; in between
   * the alpha is 1 up to half the tolerance, falls linearly to 0 at the
   * tolerance, and is 0 beyond.  Every alpha lies in [0,1].
   */
  function GetAlpha(distance: Option<real>, tolerance: real): (r: Option<real>)
    ensures r.None? <==> distance.None?
    ensures r.Some? ==> 0.0 <= r.value <= 1.0
    ensures distance.Some? && tolerance >= 1.0 ==> r == Some(1.0)
    ensures distance.Some? && tolerance <= 0.0 && distance.value == 0.0 ==> r == Some(1.0)
    ensures distance.Some? && tolerance <= 0.0 && distance.value != 0.0 ==> r == Some(0.0)
    ensures distance.Some? && 0.0 < tolerance < 1.0 && distance.value <= tolerance / 2.0 ==> r == Some(1.0)
    ensures distance.Some? && 0.0 < tolerance < 1.0 && distance.value >= tolerance ==> r == Some(0.0)
    ensures distance.Some? && 0.0 < tolerance < 1.0 && tolerance / 2.0 < distance.value < tolerance ==>
      r == Some(2.0 * (1.0 - distance.value / tolerance))
  {
    match distance
    case None => None
    case Some(d) =>
      if tolerance >= 1.0 then Some(1.0)
      else if tolerance <= 0.0 then (if d == 0.0 then Some(1.0) else Some(0.0))
      else
        var dist := d / tolerance;
        QuotientAtLeastOne(d, tolerance);
        QuotientAboveHalf(d, tolerance);
        if dist >= 1.0 then Some(0.0)
        else
          var aa := 1.0 - dist;
          if aa < 0.5 then Some(aa * 2.0) else Some(1.0)
  }

  /** For a fixed positive tolerance `d / t` grows with `d`. */
  lemma QuotientMonotone(d1: real, d2: real, t: real)
    requires 0.0 < t
    requires d1 <= d2
    ensures d1 / t <= d2 / t
  {
    assert (d2 / t - d1 / t) * t == d2 - d1;
  }

  /**
   * The fill alpha never increases with distance: for a positive tolerance
   * over all distances, and for a non-positive one over non-negative distances.
   */
  lemma AlphaNonIncreasing(d1: real, d2: real, tolerance: real)
    requires d1 <= d2
    requires 0.0 < tolerance || 0.0 <= d1
    ensures GetAlpha(Some(d2), tolerance).value <= GetAlpha(Some(d1), tolerance).value
  {
    if 0.0 < tolerance < 1.0 {
      QuotientMonotone(d1, d2, tolerance);
    }
  }

  /**
   * The tolerance curve is continuous for a tolerance strictly between 0 and
   * 1: moving the distance changes the alpha by at most `2/tolerance` times
   * as much, so the knees at half the tolerance and at the tolerance have no
   * jumps.
   */
  lemma AlphaLipschitz(d1: real, d2: real, tolerance: real)
    requires 0.0 < tolerance < 1.0
    requires d1 <= d2
    ensures GetAlpha(Some(d1), tolerance).value - GetAlpha(Some(d2), tolerance).value <= 2.0 * (d2 / tolerance - d1 / tolerance)
  {
    var t := tolerance;
    QuotientMonotone(d1, d2, t);
    QuotientAtLeastOne(d1, t);
    QuotientAtLeastOne(d2, t);
    QuotientAboveHalf(d1, t);
    QuotientAboveHalf(d2, t);
  }

  // ---------------------------------------------------------------------
  // The RGBA blend

  /** The weighted average `x*w + y*(1-w)`. */
  function Blend(x: real, y: real, w: real): real
  {
    x * w + y * (1.0 - w)
  }

  /** A weighted average with weight in [0,1] lies between the two values it averages. */
  lemma BlendBetween(x: real, y: real, w: real)
    requires 0.0 <= w <= 1.0
    ensures x <= y ==> x <= Blend(x, y, w) <= y
    ensures y <= x ==> y <= Blend(x, y, w) <= x
  {
    assert Blend(x, y, w) == y - (y - x) * w;
    assert Blend(x, y, w) == x + (y - x) * (1.0 - w);
    if x <= y {
      ProductSign(y - x, w);
      ProductSign(y - x, 1.0 - w);
    } else {
      ProductSign(x - y, w);
      ProductSign(x - y, 1.0 - w);
    }
  }

  /** Full weight on either side picks that side. */
  lemma BlendEnds(x: real, y: real)
    ensures Blend(x, y, 1.0) == x
    ensures Blend(x, y, 0.0) == y
  {
  }

  /**
   * The weight the RGBA distance gives the colour channels: the average alpha
   * times the alpha similarity.  In [0,1] when both alphas are.
   */
  function ColourFactor(a1: real, a2: real): (w: real)
    ensures InUnit(a1) && InUnit(a2) ==> InUnit(w)
  {
    var aAvg := (a1 + a2) / 2.0;
    ProductInUnit(aAvg, 1.0 - Diff(a1, a2));
    aAvg * (1.0 - Diff(a1, a2))
  }

  /**
   * `get_rgba_distance`: blends the RGB distance with the alpha difference,
   * weighting colour by the average alpha times alpha similarity.  `None`
   * exactly when there is no RGB distance.
   */
  function GetRgbaDistance(rgbDistance: Option<real>, cols: ColourPair): (r: Option<real>)
    ensures r.None? <==> rgbDistance.None?
  {
    match rgbDistance
    case None => None
    case Some(d) =>
      var aDelta := Diff(cols[0].a, cols[1].a);
      var colFactor := ColourFactor(cols[0].a, cols[1].a);
      Some(Blend(d, aDelta, colFactor))
  }

  /** Two opaque colours: the RGBA distance is the RGB distance. */
  lemma RgbaDistanceOpaque(d: real, cols: ColourPair)
    requires cols[0].a == 1.0 && cols[1].a == 1.0
    ensures GetRgbaDistance(Some(d), cols) == Some(d)
  {
    assert Diff(1.0, 1.0) == 0.0;
    assert ColourFactor(1.0, 1.0) == 1.0;
    BlendEnds(d, 0.0);
  }

  /** A fully transparent colour against an opaque one is at distance 1, whatever their colour channels. */
  lemma RgbaDistanceTransparentOpaque(d: real, cols: ColourPair)
    requires (cols[0].a == 0.0 && cols[1].a == 1.0) || (cols[0].a == 1.0 && cols[1].a == 0.0)
    ensures GetRgbaDistance(Some(d), cols) == Some(1.0)
  {
    assert Diff(cols[0].a, cols[1].a) == 1.0;
    assert ColourFactor(cols[0].a, cols[1].a) == 0.0;
    BlendEnds(d, 1.0);
  }

  /**
   * Equal alphas scale the RGB distance by that alpha.  So the bound of
   * `RgbaDistanceBetween` needs alphas in [0,1]: two alphas of 2 take an RGB
   * distance of 0.5 to 1, above both it and the alpha difference 0.
   */
  lemma RgbaDistanceEqualAlphas(d: real, a: real, cols: ColourPair)
    requires cols[0].a == a && cols[1].a == a
    ensures GetRgbaDistance(Some(d), cols) == Some(d * a)
    ensures a == 2.0 && d == 0.5 ==> GetRgbaDistance(Some(d), cols) == Some(1.0)
  {
    assert Diff(a, a) == 0.0;
    assert ColourFactor(a, a) == a;
    assert Blend(d, 0.0, a) == d * a by { assert 0.0 * (1.0 - a) == 0.0; }
  }

  /**
   * With both alphas in [0,1], the RGBA distance is a convex combination of
   * the RGB distance and the alpha difference: it lies between the two.  If
   * the RGB distance is in [0,1] as well, so is the RGBA distance.
   */
  lemma RgbaDistanceBetween(d: real, cols: ColourPair)
    requires InUnit(cols[0].a) && InUnit(cols[1].a)
    ensures var r := GetRgbaDistance(Some(d), cols).value;
      var aDelta := Diff(cols[0].a, cols[1].a);
      (d <= aDelta ==> d <= r <= aDelta) && (aDelta <= d ==> aDelta <= r <= d)
    ensures InUnit(d) ==> InUnit(GetRgbaDistance(Some(d), cols).value)
  {
    var aDelta := Diff(cols[0].a, cols[1].a);
    var w := ColourFactor(cols[0].a, cols[1].a);
    BlendBetween(d, aDelta, w);
  }

  // ---------------------------------------------------------------------
  // Recomputation and the cache invariant

  /**
   * `get_rgb_distance`: the selected metric on the two colours; `None` with
   * no metric selected or when the metric raises.
   */
  function GetRgbDistance(f: RealFns, func: Option<Metric>, cols: ColourPair): (r: Option<real>)
    ensures func.None? ==> r.None?
    ensures func.Some? ==> r == Distance(f, func.value, cols[0], cols[1])
  {
    match func
    case None => None
    case Some(m) => Distance(f, m, cols[0], cols[1])
  }

  /**
   * With lawful `sqrt`/`log2` and in-gamut colours, a selected metric always
   * yields a non-negative distance: the exception handler never fires.
   */
  lemma SelectedMetricGivesDistance(f: RealFns, func: Option<Metric>, cols: ColourPair)
    requires Lawful(f)
    requires InGamut(cols[0]) && InGamut(cols[1])
    ensures GetRgbDistance(f, func, cols).Some? <==> func.Some?
    ensures func.Some? ==> 0.0 <= GetRgbDistance(f, func, cols).value
  {
    if func.Some? {
      DistanceDefined(f, func.value, cols[0], cols[1]);
    }
  }

  /**
   * The cached outputs are exactly what the current inputs give.  Then the
   * four outputs are present or absent together, absent while no metric is
   * selected, and both alphas lie in [0,1].
   */
  predicate Consistent(f: RealFns, m: Model): (ok: bool)
    ensures ok ==> (m.rgbaDistance.None? <==> m.rgbDistance.None?)
    ensures ok ==> (m.rgbAlpha.None? <==> m.rgbDistance.None?) && (m.rgbaAlpha.None? <==> m.rgbDistance.None?)
    ensures ok && m.distanceFunc.None? ==> m.rgbDistance.None?
    ensures ok && m.rgbAlpha.Some? ==> InUnit(m.rgbAlpha.value)
    ensures ok && m.rgbaAlpha.Some? ==> InUnit(m.rgbaAlpha.value)
  {
    && m.rgbDistance == GetRgbDistance(f, m.distanceFunc, m.cols)
    && m.rgbaDistance == GetRgbaDistance(m.rgbDistance, m.cols)
    && m.rgbAlpha == GetAlpha(m.rgbDistance, m.tolerance)
    && m.rgbaAlpha == GetAlpha(m.rgbaDistance, m.tolerance)
  }

  /** `_update_values`: recomputes all four outputs, in order, from the inputs. */
  function UpdateValues(f: RealFns, m: Model): (r: Model)
    ensures r.distanceFunc == m.distanceFunc && r.cols == m.cols && r.tolerance == m.tolerance
    ensures Consistent(f, r)
  {
    var rgb := GetRgbDistance(f, m.distanceFunc, m.cols);
    var rgba := GetRgbaDistance(rgb, m.cols);
    m.(rgbDistance := rgb, rgbaDistance := rgba,
       rgbAlpha := GetAlpha(rgb, m.tolerance), rgbaAlpha := GetAlpha(rgba, m.tolerance))
  }

  /** `__init__`: stores the inputs, then computes the outputs. */
  function Init(f: RealFns, c1: Rgba, c2: Rgba, tol: real, distFunc: Option<Metric>): (r: Model)
    ensures r.distanceFunc == distFunc && r.cols == [c1, c2] && r.tolerance == tol
    ensures Consistent(f, r)
  {
    UpdateValues(f, Model(distFunc, [c1, c2], tol, None, None, None, None))
  }

  /** Python list indexing of the two colours: -2 and -1 name the same slots as 0 and 1. */
  function Slot(index: int): (k: nat)
    requires -2 <= index < 2
    ensures k < 2 && (k == index || k == index + 2)
  {
    if index < 0 then index + 2 else index
  }

  /**
   * `set_col`: replaces one colour and recomputes; the other colour is
   * untouched.  An index outside -2..1 raises `IndexError` in the source, which
   * nothing catches: that outcome is `None`.
   */
  function SetCol(f: RealFns, m: Model, index: int, col: Rgba): (r: Option<Model>)
    ensures r.Some? <==> -2 <= index < 2
    ensures r.Some? ==> r.value.cols[Slot(index)] == col
    ensures r.Some? ==> r.value.cols[1 - Slot(index)] == m.cols[1 - Slot(index)]
    ensures r.Some? ==> r.value.distanceFunc == m.distanceFunc && r.value.tolerance == m.tolerance
    ensures r.Some? ==> Consistent(f, r.value)
  {
    if -2 <= index < 2 then Some(UpdateValues(f, m.(cols := m.cols[Slot(index) := col]))) else None
  }

  /**
   * `set_tol`: replaces the tolerance and recomputes only the two alphas;
   * colours, metric and both distances are left as they were.
   */
  function SetTol(m: Model, tol: real): (r: Model)
    ensures r.tolerance == tol
    ensures r.distanceFunc == m.distanceFunc && r.cols == m.cols
    ensures r.rgbDistance == m.rgbDistance && r.rgbaDistance == m.rgbaDistance
    ensures r.rgbAlpha.None? <==> m.rgbDistance.None?
    ensures r.rgbaAlpha.None? <==> m.rgbaDistance.None?
  {
    m.(tolerance := tol,
       rgbAlpha := GetAlpha(m.rgbDistance, tol),
       rgbaAlpha := GetAlpha(m.rgbaDistance, tol))
  }

  /** `set_distance_func`: selects a metric (or none) and recomputes. */
  function SetDistanceFunc(f: RealFns, m: Model, func: Option<Metric>): (r: Model)
    ensures r.distanceFunc == func && r.cols == m.cols && r.tolerance == m.tolerance
    ensures Consistent(f, r)
    ensures func.None? ==> r.rgbDistance.None? && r.rgbaDistance.None? && r.rgbAlpha.None? && r.rgbaAlpha.None?
  {
    UpdateValues(f, m.(distanceFunc := func))
  }

  /** A consistent model with no metric has no outputs at all. */
  lemma NoMetricNoOutputs(f: RealFns, m: Model)
    requires Consistent(f, m)
    requires m.distanceFunc.None?
    ensures m.rgbDistance.None? && m.rgbaDistance.None? && m.rgbAlpha.None? && m.rgbaAlpha.None?
  {
  }

  /**
   * No stale state: a consistent model is exactly the freshly initialised
   * model with the same colours, tolerance and metric.
   */
  lemma ConsistentIsFresh(f: RealFns, m: Model)
    requires Consistent(f, m)
    ensures m == Init(f, m.cols[0], m.cols[1], m.tolerance, m.distanceFunc)
  {
    assert m.cols == [m.cols[0], m.cols[1]];
  }

  /** `set_tol` keeps the cache consistent, because neither distance depends on the tolerance. */
  lemma SetTolPreservesConsistency(f: RealFns, m: Model, tol: real)
    requires Consistent(f, m)
    ensures Consistent(f, SetTol(m, tol))
    ensures SetTol(m, tol) == Init(f, m.cols[0], m.cols[1], tol, m.distanceFunc)
  {
    ConsistentIsFresh(f, SetTol(m, tol));
  }

  // ---------------------------------------------------------------------
  // Sessions: any sequence of mutations

  /** One call of a mutator by the user interface. */
  datatype Op =
    | SetColOp(index: int, col: Rgba)
    | SetTolOp(tol: real)
    | SetFuncOp(func: Option<Metric>)

  /** Whether the call can succeed: only `set_col` can fail, on a bad index. */
  predicate ValidOp(op: Op)
  {
    op.SetColOp? ==> -2 <= op.index < 2
  }

  /** One call; `None` when it raises. */
  function Apply(f: RealFns, m: Model, op: Op): (r: Option<Model>)
    ensures r.Some? <==> ValidOp(op)
  {
    match op
    case SetColOp(i, c) => SetCol(f, m, i, c)
    case SetTolOp(t) => Some(SetTol(m, t))
    case SetFuncOp(func) => Some(SetDistanceFunc(f, m, func))
  }

  /** A sequence of calls, abandoned at the first one that raises. */
  function Run(f: RealFns, m: Model, ops: seq<Op>): Option<Model>
    decreases |ops|
  {
    if |ops| == 0 then Some(m)
    else match Apply(f, m, ops[0])
      case None => None
      case Some(next) => Run(f, next, ops[1..])
  }

  /** A session raises exactly when one of its calls has a bad index. */
  lemma {:induction false} RunSucceeds(f: RealFns, m: Model, ops: seq<Op>)
    ensures Run(f, m, ops).Some? <==> forall i :: 0 <= i < |ops| ==> ValidOp(ops[i])
    decreases |ops|
  {
    if |ops| > 0 {
      var step := Apply(f, m, ops[0]);
      if step.Some? {
        RunSucceeds(f, step.value, ops[1..]);
        assert Run(f, m, ops) == Run(f, step.value, ops[1..]);
        assert forall i :: 1 <= i < |ops| ==> ops[1..][i - 1] == ops[i];
      } else {
        assert Run(f, m, ops) == None;
      }
    }
  }

  /** Every mutator leaves the cache consistent. */
  lemma ApplyPreservesConsistency(f: RealFns, m: Model, op: Op)
    requires Consistent(f, m)
    ensures Apply(f, m, op).Some? ==> Consistent(f, Apply(f, m, op).value)
  {
    if op.SetTolOp? {
      SetTolPreservesConsistency(f, m, op.tol);
    }
  }

  /**
   * The cache invariant of the whole session: starting from a consistent model
   * (such as one built by `__init__`), after any sequence of `set_col`,
   * `set_tol` and `set_distance_func` calls the four outputs are consistent
   * with the latest inputs.
   */
  lemma {:induction false} RunPreservesConsistency(f: RealFns, m: Model, ops: seq<Op>)
    requires Consistent(f, m)
    ensures Run(f, m, ops).Some? ==> Consistent(f, Run(f, m, ops).value)
    decreases |ops|
  {
    if |ops| > 0 {
      ApplyPreservesConsistency(f, m, ops[0]);
      match Apply(f, m, ops[0])
      case None =>
      case Some(next) => RunPreservesConsistency(f, next, ops[1..]);
    }
  }

  /**
   * The state reached from `__init__` by any session equals a model freshly
   * initialised with the final colours, tolerance and metric.
   */
  lemma SessionIsFresh(f: RealFns, c1: Rgba, c2: Rgba, tol: real, func: Option<Metric>, ops: seq<Op>)
    ensures var r := Run(f, Init(f, c1, c2, tol, func), ops);
      r.Some? ==> r.value == Init(f, r.value.cols[0], r.value.cols[1], r.value.tolerance, r.value.distanceFunc)
  {
    var r := Run(f, Init(f, c1, c2, tol, func), ops);
    RunPreservesConsistency(f, Init(f, c1, c2, tol, func), ops);
    if r.Some? {
      ConsistentIsFresh(f, r.value);
    }
  }

  /**
   * End to end: with lawful `sqrt`/`log2`, in-gamut colours with alphas in
   * [0,1] and any metric but the unnormalised absolute maximum, all four
   * outputs of a consistent model are present and lie in [0,1].
   */
  lemma OutputsInUnit(f: RealFns, m: Model)
    requires Lawful(f)
    requires Consistent(f, m)
    requires m.distanceFunc.Some? && m.distanceFunc.value != MaxDiffAbsolute
    requires InGamut(m.cols[0]) && InGamut(m.cols[1]) && InUnit(m.cols[0].a) && InUnit(m.cols[1].a)
    ensures m.rgbDistance.Some? && InUnit(m.rgbDistance.value)
    ensures m.rgbaDistance.Some? && InUnit(m.rgbaDistance.value)
    ensures m.rgbAlpha.Some? && InUnit(m.rgbAlpha.value)
    ensures m.rgbaAlpha.Some? && InUnit(m.rgbaAlpha.value)
  {
    BoundedMetricsInUnit(f, m.distanceFunc.value, m.cols[0], m.cols[1]);
    RgbaDistanceBetween(m.rgbDistance.value, m.cols);
  }
}
